=== FILE: README.md ===
# MoviReco core in Dafny

A Dafny model of the logic behind the MoviReco movie-recommendation web
application. It covers:

- the **catalog provider**: the eight shipped movies and the trending, new,
  by-genre, all-genres and lookup views of them;
- the **recommendation gateway**:
  - it projects the catalog into a JSON context and splices that context and
    the user's request into a prompt;
  - it asks a generative model and returns its parsed reply;
  - on any error it returns a fixed fallback;
- the **chat advisor**: the guard against blank or concurrent sends, the
  transcript, and how recommended ids become catalog cards;
- the **search box** of the navigation bar:
  - suggestions are a case-insensitive substring match over title, genres and
    cast, at most five;
  - a state machine covers the query, the dropdown, the box and the
    highlighted suggestion under typing, the arrow keys, Enter, Tab, Escape
    and selection;
- the **profile page**: the liked movies, the rated-movie cards and the two
  activity counters;
- the **notification sidebar**: the fixed notifications and what clicking one
  does;
- the **application shell**:
  - the home, sign-in and profile views, the signed-in user, the open movie and
    the sidebar;
  - the notification badge;
  - the hero and the four home-page rows.

Every component is a module of immutable data and pure functions. The state
transitions each come with a reachable-state invariant proved to be kept.

Modules, in dependency order:

- `Options`
- `Seqs`: filter, subsequence, distinctness, dedup and infix search
- `Text`: trim and ASCII lower-casing
- `Types`: the records, and the JavaScript values a parsed reply can be
- `Json`: string escaping and integer printing for `JSON.stringify`
- `MovieService`
- `GeminiService`
- `AIAdvisor`
- `Navbar`
- `ProfilePage`
- `NotificationSidebar`
- `App`

Behaviour worth noting:

- The gateway returns whatever `JSON.parse` produced. It neither checks the
  reply's shape nor filters unknown ids. Filtering happens in the advisor.
- A reply that violates the response schema is not replaced by the fallback.
  The advisor shows it as long as handling it does not throw: a missing or
  non-string `explanation` becomes the message content as it is, and
  non-string ids simply match nothing.
- Recommended movies are listed in catalog order, each at most once. The order
  of the returned ids is not kept.
- The fallback is a list of ids (the first three catalog ids), not a list of
  movies.

## Model

| member | source | states |
|---|---|---|
| MovieService.Trending | services/movieService.ts:109 | a catalog entry is in the result exactly when its `isTrending` flag is true; nothing else is |
| MovieService.NewMovies | services/movieService.ts:110 | a catalog entry is in the result exactly when its `isNew` flag is true; nothing else is |
| MovieService.ByGenre | services/movieService.ts:111 | a catalog entry is in the result exactly when its genre list contains the genre |
| MovieService.AccessorsAreOrderedSelections | services/movieService.ts:109-111 | each accessor's result is a subsequence of the catalog (catalog order) holding every copy of each qualifying entry and no other entry (multiset counts) |
| MovieService.AccessorsBounded | services/movieService.ts:109-111 | no accessor returns more entries than the catalog has |
| MovieService.GenreTags | services/movieService.ts:112 | the flattened tag list holds every genre of every movie and nothing that is not some movie's genre |
| MovieService.GenreTagsOfOne | services/movieService.ts:112 | one movie contributes exactly its genre list, in order and with repeats |
| MovieService.GenreTagsAppend | services/movieService.ts:112 | the tags of two catalogs joined are the tags of the first followed by those of the second, so order and multiplicity follow `flatMap` |
| MovieService.AllGenres | services/movieService.ts:112 | the genre list has no duplicates, holds every genre of every movie, and holds nothing that is not some movie's genre |
| MovieService.AllGenresFirstOccurrenceOrder | services/movieService.ts:112 | genres are listed in the order of their first occurrence in the catalog's genre lists (Set insertion order) |
| MovieService.FindById | components/NotificationSidebar.tsx:59 | lookup fails exactly when no entry carries the id; otherwise it yields the first entry that does |
| MovieService.CatalogIdsDistinct | services/movieService.ts:4-107 | the shipped catalog's ids are '1' to '8' in order, pairwise distinct |
| MovieService.WithIds | components/AIAdvisor.tsx:39 | an entry is selected exactly when its id is listed; only catalog entries are returned, each selected entry as many times as the catalog holds it |
| MovieService.WithIdsIsCatalogOrdered | components/AIAdvisor.tsx:39 | selection by ids is a catalog-order subsequence, without repeats when the catalog has none |
| MovieService.WithIdsDependsOnIdSetOnly | components/AIAdvisor.tsx:39 | two id lists naming the same catalog ids select the same entries, whatever their order, repetitions or unknown ids |
| MovieService.WithIdsOfPrefix | services/geminiService.ts:57 | in a catalog with unique ids, selecting the ids of the first k entries yields exactly those k entries |
| MovieService.WithIdsAtMostIds | components/ProfilePage.tsx:15 | in a catalog with unique ids, the selection has at most one entry per distinct listed id |
| Text.Trim | components/AIAdvisor.tsx:30 | trimming leaves the block of the input between a leading and a trailing run of ECMAScript white space, neither starting nor ending with white space |
| Text.IsBlank | components/AIAdvisor.tsx:30 | `!s.trim()` holds exactly when every character is ECMAScript white space or a line terminator |
| Text.Lower | components/Navbar.tsx:61 | lower-casing keeps the length and maps each character on its own |
| Text.LowerIdempotent | components/Navbar.tsx:61 | lower-casing twice equals lower-casing once and leaves no upper-case ASCII letter |
| Json.EscapeRoundTrip | services/geminiService.ts:21 | the JSON string escaping used for the context is undone exactly by JSON unescaping |
| Json.EscapeInjective | services/geminiService.ts:21 | distinct strings serialise to distinct JSON string bodies |
| Json.NatRoundTrip | services/geminiService.ts:21 | the decimal rendering of a year parses back to the same number |
| Json.StringArray | services/geminiService.ts:21 | a serialised array of strings is bracketed and contains every element as a quoted string |
| Types.StringItemsOfStrValues | services/geminiService.ts:56-59 | the string items read back from an array of string values are the original strings |
| Types.Lookup | services/geminiService.ts:52 | a key no member carries reads as `undefined`; the member read is the last one carrying the key, wherever it sits |
| GeminiService.MovieContext | services/geminiService.ts:9-15 | one context entry per movie, in order, carrying that movie's id, title, genre, description and year |
| GeminiService.ContextShowsOnlyProjectedFields | services/geminiService.ts:9-15 | two catalogs give the same context exactly when they agree on the five projected fields |
| GeminiService.EntryJson | services/geminiService.ts:21 | a serialised context entry contains the movie's id, title and synopsis as quoted strings, its genre array, and its year as a decimal number after the `year` key |
| GeminiService.ContextJson | services/geminiService.ts:21 | the serialised context is bracketed and contains every entry's serialisation |
| GeminiService.Fill | services/geminiService.ts:17-26 | the filled template starts with the opening text, carries the request verbatim right after it, and contains the context |
| GeminiService.Prompt | services/geminiService.ts:17-26 | the prompt opens with the fixed text and quotes the user request unchanged right after it |
| GeminiService.PromptCarriesContext | services/geminiService.ts:21 | the prompt contains the serialised catalog context |
| GeminiService.PromptNamesEveryMovie | services/geminiService.ts:9-26 | every catalog entry's id and title appear in the prompt as quoted JSON strings |
| GeminiService.PromptDeterminesInput | services/geminiService.ts:17-18 | for one catalog, different requests give different prompts; nothing is trimmed or rewritten |
| GeminiService.FallbackIds | services/geminiService.ts:57 | the fallback ids are the ids of the first min(3, catalog size) entries, in order |
| GeminiService.Fallback | services/geminiService.ts:56-59 | the fallback names those ids and has a non-empty explanation |
| GeminiService.ResponseValueReadsBack | services/geminiService.ts:56-59 | the fallback object's `recommendedIds` reads back as the array of its ids and its `explanation` as its text |
| GeminiService.Answer | services/geminiService.ts:28-60 | a failed request or unparseable text gives the fallback; otherwise the parsed value is returned as is, unchecked |
| GeminiService.Recommend | services/geminiService.ts:8-61 | asking about a request gives the fallback when the request or the parse of its reply fails, and otherwise exactly the parsed reply to that request's prompt |
| GeminiService.FailuresYieldSameFallback | services/geminiService.ts:54-59 | any two failures, whatever the request and the error, give the same well-shaped reply: the first three ids and the fixed explanation |
| GeminiService.ShippedFallback | services/geminiService.ts:57 | for the shipped catalog the fallback ids are '1', '2', '3' |
| AIAdvisor.Type | components/AIAdvisor.tsx:132 | typing replaces the input and touches neither the transcript nor the loading flag |
| AIAdvisor.Submit | components/AIAdvisor.tsx:30-35 | a rejected send changes nothing; an accepted one clears the input, appends a user message with the raw input, and sets loading |
| AIAdvisor.GuardIgnoresBlankOrBusy | components/AIAdvisor.tsx:30 | a send is ignored exactly when the input is all white space or a request is pending |
| AIAdvisor.AssistantReply | components/AIAdvisor.tsx:37-47 | the apology without movies exactly when handling the reply throws over a non-empty catalog (a null or undefined reply, or a `recommendedIds` without `includes`); for an empty catalog see Left out; otherwise the reply's `explanation` as it is, with the catalog entries its ids pick, in catalog order, each as many times as the catalog holds it |
| AIAdvisor.ArrayPicksByStringItems | components/AIAdvisor.tsx:39 | picking by an id array selects the entries named by its string items, as selection by a list of ids does |
| AIAdvisor.WellShapedReplyShown | components/AIAdvisor.tsx:39-45 | a reply of the requested shape is shown with its explanation and the catalog entries it names |
| AIAdvisor.LooseReplyShown | components/AIAdvisor.tsx:39-45 | a reply lacking `explanation` and with a number among its ids is shown without apology: content `undefined`, the movie of its string id |
| AIAdvisor.UnusableReplyApologises | components/AIAdvisor.tsx:39-47 | on a non-empty catalog, `null`, a number, an object without `recommendedIds` and a boolean `recommendedIds` all end in the apology |
| AIAdvisor.Complete | components/AIAdvisor.tsx:41-50 | completion appends exactly the assistant message, keeps every earlier message and the input, and clears loading |
| AIAdvisor.SendAnswered | components/AIAdvisor.tsx:29-51 | a whole send either changes nothing or appends the user message and then the reply to the gateway's answer, leaving the advisor idle |
| AIAdvisor.Send | components/AIAdvisor.tsx:29-51 | against the gateway: a send is ignored or appends the user message and the reply; the reply is always the assistant message for the gateway's answer, and when asking failed it is the fallback explanation with the fallback picks |
| AIAdvisor.FailedSendShowsFallbackPicks | components/AIAdvisor.tsx:38-45 | when the request or the parse fails, the answer shown is the fallback explanation with the movies of the first three ids, which are the first three catalog entries when ids are unique |
| AIAdvisor.AnsweredSendShowsParsedReply | components/AIAdvisor.tsx:38-45 | when the gateway's text parses, the answer shown is the assistant message for exactly that parsed value |
| AIAdvisor.ResolutionIgnoresReturnedOrder | components/AIAdvisor.tsx:39 | ids returned in reverse order, repeated or unknown still yield the two movies in catalog order, once each |
| AIAdvisor.InitialValid | components/AIAdvisor.tsx:15-18 | the first render is a well-formed transcript: the greeting alone, nothing pending |
| AIAdvisor.StepPreservesValid | components/AIAdvisor.tsx:29-51 | typing, sending and the gateway's answer keep the transcript well-formed: greeting first, roles alternating, movies only on assistant messages, pending exactly when the user spoke last |
| AIAdvisor.SubmitPreservesValid | components/AIAdvisor.tsx:30-35 | an accepted send appends a user turn where one is due and starts waiting, keeping the transcript well-formed |
| AIAdvisor.CompletePreservesValid | components/AIAdvisor.tsx:41-50 | the answer to a pending send appends an assistant turn where one is due and stops waiting, keeping the transcript well-formed |
| AIAdvisor.SendPreservesValid | components/AIAdvisor.tsx:29-51 | a whole send from a well-formed state leaves a well-formed state, whatever the gateway answered |
| Navbar.Matches | components/Navbar.tsx:63-66 | an entry matches exactly when its lower-cased title, some genre or some cast member contains the query; the matches keep catalog order and each matching entry's multiplicity |
| Navbar.Suggestions | components/Navbar.tsx:59-68 | at most five suggestions, none for a blank query, each a catalog entry matching the lower-cased query |
| Navbar.SuggestionsAreFirstMatches | components/Navbar.tsx:63-67 | the suggestions are the first min(5, #matches) matches in catalog order, a subsequence of the catalog |
| Navbar.ShortListIsComplete | components/Navbar.tsx:63-67 | with fewer than five suggestions, every matching catalog entry is suggested |
| Navbar.OpenSearch | components/Navbar.tsx:107-110 | the search icon shows the box and keeps the query, the highlight and the dropdown flag |
| Navbar.Edit | components/Navbar.tsx:154-157 | typing replaces the query and shows the dropdown; a changed query resets the highlight to none |
| Navbar.Focus | components/Navbar.tsx:158 | focusing shows the dropdown and changes nothing else |
| Navbar.CloseSearch | components/Navbar.tsx:163 | the close button hides the box and empties the query, leaving the dropdown flag as it was |
| Navbar.Hover | components/Navbar.tsx:169-184 | pointing at a rendered suggestion highlights exactly it, keeping the query, the dropdown and the box as they were |
| Navbar.Select | components/Navbar.tsx:74-81 | selecting forwards the movie, empties the query, hides dropdown and box, and clears the highlight |
| Navbar.KeyDown | components/Navbar.tsx:83-105 | ArrowDown and ArrowUp move the highlight with clamping to [-1, len-1]; Enter picks the highlighted, else the first, else nothing; Tab picks the first only if suggestions are shown; Escape hides dropdown and box; anything picked is a current suggestion |
| Navbar.KeyDownKeepsFit | components/Navbar.tsx:84-89 | a key press either keeps the query and a highlight within the list or clears the highlight |
| Navbar.InitialInRange | components/Navbar.tsx:26 | the initial highlight (-1) is in range |
| Navbar.SearchStepKeepsFit | components/Navbar.tsx:70-105 | every event the page can deliver keeps the query and a highlight within the listed suggestions, or clears the highlight; only a listed suggestion is ever handed on |
| Navbar.SearchStepKeepsIndexInRange | components/Navbar.tsx:59-105 | as the listed suggestions are those of the current query, every deliverable event keeps the highlight in [-1, len-1] |
| ProfilePage.LikedMovies | components/ProfilePage.tsx:15 | an entry is shown as liked exactly when the user liked its id; only catalog entries are shown, each liked entry as many times as the catalog holds it |
| ProfilePage.LikedMoviesOrderedAndDistinct | components/ProfilePage.tsx:15 | in a catalog with unique ids the liked grid is in catalog order and without repeats |
| ProfilePage.RatedMovies | components/ProfilePage.tsx:16-19 | one card per rating, in rating order, with the rating's score; the card's movie is the first catalog entry with the rated id, and is missing exactly when no entry has it |
| ProfilePage.RatedCardsShowTheRatedMovie | components/ProfilePage.tsx:17-18 | in a catalog with unique ids a card's movie carries the rated id and is the only entry that does |
| ProfilePage.CountersVersusCards | components/ProfilePage.tsx:71-75 | the Rated counter equals the number of rated cards; the Liked counter is never below the number of liked cards (catalog ids unique) |
| NotificationSidebar.HandleItemClick | components/NotificationSidebar.tsx:57-65 | a click selects a movie exactly when the item has a non-empty movie id the catalog knows; it is then the first entry with that id, and the sidebar closes exactly then |
| NotificationSidebar.NotificationTargetsExist | components/NotificationSidebar.tsx:22-54 | every shipped notification that names a movie ('1', '6', '7') opens a movie from the shipped catalog |
| App.OpenMovie | App.tsx:28-30 | opening a movie selects it and leaves view, user and sidebar alone |
| App.CloseMovie | App.tsx:96 | closing the details clears the selection only |
| App.ProfileClick | App.tsx:32-38 | the profile view when signed in, the sign-in view otherwise; the user, the selection and the sidebar are untouched |
| App.Login | App.tsx:40-43 | signing in records the user and returns home, keeping the selection and the sidebar |
| App.Logout | App.tsx:45-48 | signing out forgets the user and returns home, keeping the selection and the sidebar |
| App.Back | App.tsx:105-119 | the back buttons return home without touching the user, the selection or the sidebar |
| App.NotificationCount | App.tsx:56 | the badge is non-zero exactly when a user is signed in, at most three |
| App.Hero | App.tsx:22 | the hero is the first catalog entry, absent only for an empty catalog |
| App.Rows | App.tsx:23-26 | four titled rows that are the trending, new, Sci-Fi and Comedy selections, each holding exactly the qualifying catalog entries |
| App.InitialValid | App.tsx:17-20 | the first render is home, signed out, no overlay, empty badge |
| App.StepPreservesValid | App.tsx:32-48 | every enabled event keeps "profile view implies signed in", so the profile overlay's user guard is implied by the view |
| App.NotificationClickOpensNamedMovie | App.tsx:99-103 | a notification click changes nothing or opens the movie the notification names and closes the sidebar |
| App.LogoutThenProfileGoesToAuth | App.tsx:32-48 | after signing out, the profile button leads to the sign-in page with an empty badge |

## Left out

- The network request to the generative model, the API key and the model
  configuration. They are the parameter `call` of `GeminiService.Recommend`.
- `JSON.parse` is the parameter `parse`. Its result is a `Value`. Numbers
  are `real`; a property that a built-in prototype supplies (such as
  `constructor`) is not modelled, as the code reads only `recommendedIds`
  and `explanation`.
- What React renders for a message content that is not a string is not
  modelled; the transcript keeps the value.
- The `console.error` in the gateway's `catch` is dropped: it has no effect
  on the reply.
- The catalog's synopses, thumbnail and backdrop addresses are empty strings.
  No operation of the core inspects them beyond copying. Long literals would
  only slow the proofs.
- The notification messages are empty strings, for the same reason.
- `rating` and `score` are Dafny `real`. The model does no floating-point
  arithmetic on them.
- Text.Lower: only maps ASCII `A`–`Z`, while `toLowerCase` maps every
  Unicode capital. The shipped cast list contains "Timothée Chalamet", so a
  query with a non-ASCII capital such as "TIMOTHÉE" finds "Dune: Part Two"
  in the application but nothing in the model.
- `year` is a Dafny `int`, while the application's is a JavaScript number.
  A non-integral year in the serialised context is not modelled.
- Strings are sequences of Unicode scalar values, not of UTF-16 code units.
  Substring search (`includes`) and the JSON escaping of lone surrogates,
  which cannot occur in such a sequence, are modelled on that basis.
- AIAdvisor.AssistantReply: over an empty catalog, a `null` or `undefined`
  reply does not throw inside the `try`, because the filter callback never
  runs. Reading its `explanation` then fails while React renders, outside the
  `try`, which the model does not represent: it shows the apology instead.
  The shipped catalog is not empty, so the application never reaches this.
- ProfilePage.RatedMovies: an unknown rated id gives a card without a movie,
  matching what the spread of `undefined` yields when the list is built. It
  does not require every rated id to exist. The page itself does not show
  such a card: rendering it reads `movie.genre.join(...)` on a missing genre
  list and throws, which the model does not represent. The mock profile the
  sign-in page creates rates only ids '2' and '5', both in the catalog, so
  the application never reaches this.
- The asynchronous interleaving of `handleSend` is its two halves as separate
  events, with a resolution only while loading. Typing while loading is
  allowed.
- `highlightText`: it builds a regular expression from raw user text, which
  depends on regex-engine semantics.
- Scroll, click-outside and focus listeners, `setTimeout`, scrolling into
  view, and carousel scroll arithmetic.
- The sign-in page's form is not modelled. Its simulated delay and mock
  profile are reduced to the `LoggedIn(profile)` event.
- Pure render components: Hero, MovieCard, MovieDetails, MovieRow, and the
  markup of every other component.
- Opening and closing the advisor panel (`isOpen`) is not modelled.

=== FILE: AIAdvisor.dfy ===
/**
  The chat advisor: the input box, the transcript and the loading flag.
  `handleSend` is split at its `await` into `Submit` (the guard and the user
  message) and `Complete` (the assistant message once the gateway answered);
  `SendAnswered` is the two in sequence for a given answer, and `Send` feeds
  it the gateway's answer.
*/
module AIAdvisor {
  import opened Options
  import opened Seqs
  import opened Text
  import opened Types
  import opened MovieService
  import opened GeminiService

  const Greeting: string := "Hi! I am your MoviReco advisor. Tell me what mood you are in or what kind of movie you are looking for."
  const Apology: string := "Sorry, I had trouble finding recommendations. Try again!"

  datatype AdvisorState = AdvisorState(input: string, messages: seq<ChatMessage>, loading: bool)

  /** The state when the advisor is first rendered: one assistant greeting. */
  const Initial: AdvisorState := AdvisorState([], [ChatMessage(Assistant, Str(Greeting), None)], false)

  /** The message shown when handling the reply throws. */
  const ApologyMessage: ChatMessage := ChatMessage(Assistant, Str(Apology), None)

  /** Typing in the input box (`onChange`); allowed while a request is pending. */
  function Type(s: AdvisorState, text: string): (t: AdvisorState)
    ensures t.input == text && t.messages == s.messages && t.loading == s.loading
  {
    s.(input := text)
  }

  /** `handleSend` gets past its first line: the input is not blank and nothing is pending. */
  predicate Accepts(s: AdvisorState) {
    !IsBlank(s.input) && !s.loading
  }

  /** The synchronous half of `handleSend`. */
  function Submit(s: AdvisorState): (t: AdvisorState)
    ensures !Accepts(s) ==> t == s
    ensures Accepts(s) ==> t.input == [] && t.loading
    ensures Accepts(s) ==> t.messages == s.messages + [ChatMessage(User, Str(s.input), None)]
  {
    if !Accepts(s) then s
    else AdvisorState([], s.messages + [ChatMessage(User, Str(s.input), None)], true)
  }

  /**
    `ids.includes(id)` where `ids` has an `includes` method: on an array it
    compares by SameValueZero, so only an equal string item matches; on a
    string it is a substring search.
  */
  predicate Picks(ids: Value, id: string) {
    match ids
    case Array(items) => Str(id) in items
    case Str(text) => IsInfix(id, text)
    case _ => false
  }

  /**
    Handling the reply fails. Over a non-empty catalog the filter callback
    runs inside the `try`, and it throws when the reply is `null` or
    `undefined` (no properties to read) or when its `recommendedIds` is
    neither an array nor a string (no `includes` to call). Over an empty
    catalog the callback never runs, and a `null` or `undefined` reply
    fails only later, when the state updater reads its `explanation` during
    rendering, outside the `try`; the model shows the apology for that case
    as well.
  */
  predicate Throws(catalog: seq<Movie>, reply: Value) {
    || reply.Null?
    || reply.Undefined?
    || (|catalog| > 0 && !Property(reply, "recommendedIds").Array? && !Property(reply, "recommendedIds").Str?)
  }

  /**
    The assistant message for a gateway reply, as the `try` block builds it:
    the reply's `explanation`, whatever it is, and the catalog entries the
    reply's `recommendedIds` picks, in catalog order. When that throws, the
    `catch` block shows the apology without movies.
  */
  function AssistantReply(catalog: seq<Movie>, reply: Value): (m: ChatMessage)
    ensures m.role == Assistant
    ensures m.movies.None? <==> Throws(catalog, reply)
    ensures m.movies.None? ==> m == ApologyMessage
    ensures m.movies.Some? ==> m.content == Property(reply, "explanation")
    ensures m.movies.Some? ==> IsSubseq(m.movies.value, catalog)
    ensures m.movies.Some? ==> forall x :: x in m.movies.value <==> x in catalog && Picks(Property(reply, "recommendedIds"), x.id)
    ensures m.movies.Some? ==> forall x ::
      multiset(m.movies.value)[x] == if Picks(Property(reply, "recommendedIds"), x.id) then multiset(catalog)[x] else 0
  {
    if Throws(catalog, reply) then ApologyMessage
    else
      var p := (x: Movie) => Picks(Property(reply, "recommendedIds"), x.id);
      FilterMembers(catalog, p);
      FilterIsSubseq(catalog, p);
      assert forall x :: multiset(Filter(catalog, p))[x] == if p(x) then multiset(catalog)[x] else 0 by {
        forall x
          ensures multiset(Filter(catalog, p))[x] == if p(x) then multiset(catalog)[x] else 0
        {
          FilterCounts(catalog, p, x);
        }
      }
      ChatMessage(Assistant, Property(reply, "explanation"), Some(Filter(catalog, p)))
  }

  /** Picking by an array keeps the entries whose id is one of the array's string items. */
  lemma ArrayPicksByStringItems(catalog: seq<Movie>, items: seq<Value>)
    ensures Filter(catalog, (x: Movie) => Picks(Array(items), x.id)) == WithIds(catalog, StringItems(items))
  {
    FilterCongruent(catalog, (x: Movie) => Picks(Array(items), x.id), (m: Movie) => m.id in StringItems(items));
  }

  /**
    A reply of the requested shape is shown with its explanation and the
    catalog entries it names; this is how the gateway's fallback is shown.
  */
  lemma WellShapedReplyShown(catalog: seq<Movie>, r: RecommendationResponse)
    ensures AssistantReply(catalog, ResponseValue(r)) == ChatMessage(Assistant, Str(r.explanation), Some(WithIds(catalog, r.recommendedIds)))
  {
    ResponseValueReadsBack(r);
    ArrayPicksByStringItems(catalog, StrValues(r.recommendedIds));
  }

  /**
    A reply without an explanation and with a number among its ids is still
    shown without apology: the content is `undefined` and the number simply
    matches no id.
  */
  lemma LooseReplyShown(a: Movie, b: Movie)
    requires a.id != b.id
    ensures AssistantReply([a, b], Object([Member("recommendedIds", Array([Str(b.id), Number(1.0)]))]))
      == ChatMessage(Assistant, Undefined, Some([b]))
  {
    var reply := Object([Member("recommendedIds", Array([Str(b.id), Number(1.0)]))]);
    assert Property(reply, "recommendedIds") == Array([Str(b.id), Number(1.0)]);
    assert !Throws([a, b], reply);
    var ms := AssistantReply([a, b], reply).movies.value;
    assert Picks(Property(reply, "recommendedIds"), b.id);
    assert !Picks(Property(reply, "recommendedIds"), a.id);
    assert b in ms;
    assert a !in ms;
    assert [a, b][1..] == [b] && [b][1..] == [];
    assert ms[0] in ms;
    assert IsSubseq(ms, [a, b]) && ms[0] != a;
    assert IsSubseq(ms, [b]);
    assert !IsSubseq(ms, [b][1..]);
    assert ms[0] == b && IsSubseq(ms[1..], [b][1..]);
    assert |ms| == 1;
    assert ms == [b];
  }

  /** On a non-empty catalog, a reply that is not an object with an `includes`-able `recommendedIds` ends in the apology. */
  lemma UnusableReplyApologises(catalog: seq<Movie>)
    requires |catalog| > 0
    ensures AssistantReply(catalog, Null) == ApologyMessage
    ensures AssistantReply(catalog, Number(3.0)) == ApologyMessage
    ensures AssistantReply(catalog, Object([Member("explanation", Str("x"))])) == ApologyMessage
    ensures AssistantReply(catalog, Object([Member("recommendedIds", Bool(true))])) == ApologyMessage
  {
  }

  /** The asynchronous half of `handleSend`: append the reply, clear `loading` (the `finally`). */
  function Complete(s: AdvisorState, catalog: seq<Movie>, reply: Value): (t: AdvisorState)
    requires s.loading
    ensures !t.loading && t.input == s.input
    ensures |t.messages| == |s.messages| + 1 && t.messages[..|s.messages|] == s.messages
    ensures t.messages[|s.messages|] == AssistantReply(catalog, reply)
  {
    AdvisorState(s.input, s.messages + [AssistantReply(catalog, reply)], false)
  }

  /** `handleSend` run to completion, its awaited gateway call having produced `reply`. */
  function SendAnswered(s: AdvisorState, catalog: seq<Movie>, reply: Value): (t: AdvisorState)
    ensures !Accepts(s) ==> t == s
    ensures Accepts(s) ==> t.input == [] && !t.loading
    ensures Accepts(s) ==> |t.messages| == |s.messages| + 2 && t.messages[..|s.messages|] == s.messages
    ensures Accepts(s) ==> t.messages[|s.messages|] == ChatMessage(User, Str(s.input), None)
    ensures Accepts(s) ==> t.messages[|s.messages| + 1] == AssistantReply(catalog, reply)
  {
    if !Accepts(s) then s
    else
      var t := Complete(Submit(s), catalog, reply);
      assert t.messages == s.messages + [ChatMessage(User, Str(s.input), None), AssistantReply(catalog, reply)];
      t
  }

  /**
    `handleSend` run to completion against the gateway: the user's message and
    the reply to it are appended. When asking the model failed the reply
    shows the fallback explanation with the fallback picks; in every case it
    is the assistant message for the gateway's answer.
  */
  function Send(s: AdvisorState, catalog: seq<Movie>, call: string -> CallOutcome, parse: string -> Option<Value>): (t: AdvisorState)
    ensures !Accepts(s) ==> t == s
    ensures Accepts(s) ==> t.input == [] && !t.loading
    ensures Accepts(s) ==> |t.messages| == |s.messages| + 2 && t.messages[..|s.messages|] == s.messages
    ensures Accepts(s) ==> t.messages[|s.messages|] == ChatMessage(User, Str(s.input), None)
    ensures Accepts(s) && Fails(catalog, s.input, call, parse) ==>
      t.messages[|s.messages| + 1] == ChatMessage(Assistant, Str(FallbackExplanation), Some(WithIds(catalog, FallbackIds(catalog))))
    ensures Accepts(s) ==> t.messages[|s.messages| + 1] == AssistantReply(catalog, Recommend(catalog, s.input, call, parse))
  {
    var reply := Recommend(catalog, s.input, call, parse);
    assert Fails(catalog, s.input, call, parse) ==>
      AssistantReply(catalog, reply) == ChatMessage(Assistant, Str(FallbackExplanation), Some(WithIds(catalog, FallbackIds(catalog)))) by {
      WellShapedReplyShown(catalog, Fallback(catalog));
    }
    SendAnswered(s, catalog, reply)
  }

  // ---------------------------------------------------------------------------
  // Properties

  /** A send is ignored exactly when the input is white space only or a request is pending. */
  lemma GuardIgnoresBlankOrBusy(s: AdvisorState)
    ensures !Accepts(s) <==> AllSpace(s.input) || s.loading
  {
  }

  /** Returned order is not kept: asking for the later entry first still lists the earlier one first. */
  lemma ResolutionIgnoresReturnedOrder(a: Movie, b: Movie)
    requires a.id != b.id
    ensures WithIds([a, b], [b.id, a.id, b.id, "999"]) == [a, b]
  {
    var p := (m: Movie) => m.id in [b.id, a.id, b.id, "999"];
    assert [a, b][1..] == [b];
    assert Filter([b], p) == [b];
  }

  /** Messages at even positions are the assistant's, at odd positions the user's. */
  predicate Alternates(msgs: seq<ChatMessage>) {
    forall i :: 0 <= i < |msgs| ==> msgs[i].role == (if i % 2 == 0 then Assistant else User)
  }

  /** User messages never carry movie cards. */
  predicate UserTurnsBare(msgs: seq<ChatMessage>) {
    forall i :: 0 <= i < |msgs| && msgs[i].role == User ==> msgs[i].movies.None?
  }

  /** Appending an assistant message, or a user message without cards, keeps user turns bare. */
  lemma AppendKeepsBare(msgs: seq<ChatMessage>, m: ChatMessage)
    requires UserTurnsBare(msgs) && (m.role == User ==> m.movies.None?)
    ensures UserTurnsBare(msgs + [m])
  {
    forall i | 0 <= i < |msgs| + 1 && (msgs + [m])[i].role == User
      ensures (msgs + [m])[i].movies.None?
    {
      if i < |msgs| {
        assert (msgs + [m])[i] == msgs[i];
      }
    }
  }

  /** Appending a message of the role due next keeps the alternation. */
  lemma AppendKeepsAlternation(msgs: seq<ChatMessage>, m: ChatMessage)
    requires Alternates(msgs) && m.role == (if |msgs| % 2 == 0 then Assistant else User)
    ensures Alternates(msgs + [m])
  {
    forall i | 0 <= i < |msgs| + 1
      ensures (msgs + [m])[i].role == (if i % 2 == 0 then Assistant else User)
    {
      if i < |msgs| {
        assert (msgs + [m])[i] == msgs[i];
      }
    }
  }

  /**
    Transcript shape in every reachable state: the greeting first, then
    alternating user and assistant messages; a request is pending exactly when
    the last message is the user's; only assistant messages carry movies.
  */
  predicate Valid(s: AdvisorState) {
    && |s.messages| >= 1
    && s.messages[0] == ChatMessage(Assistant, Str(Greeting), None)
    && Alternates(s.messages)
    && UserTurnsBare(s.messages)
    && (s.loading <==> |s.messages| % 2 == 0)
  }

  datatype Event = Typed(text: string) | Sent | Resolved(reply: Value)

  /** A resolution only ever arrives for the pending send. */
  predicate Enabled(s: AdvisorState, e: Event) {
    e.Resolved? ==> s.loading
  }

  function Step(s: AdvisorState, catalog: seq<Movie>, e: Event): AdvisorState
    requires Enabled(s, e)
  {
    match e
    case Typed(text) => Type(s, text)
    case Sent => Submit(s)
    case Resolved(reply) => Complete(s, catalog, reply)
  }

  lemma InitialValid()
    ensures Valid(Initial)
  {
  }

  /** An accepted send appends the user's turn at an odd position and starts waiting. */
  lemma SubmitPreservesValid(s: AdvisorState)
    requires Valid(s)
    ensures Valid(Submit(s))
  {
    if Accepts(s) {
      var m := ChatMessage(User, Str(s.input), None);
      AppendKeepsAlternation(s.messages, m);
      AppendKeepsBare(s.messages, m);
      assert Submit(s).messages == s.messages + [m];
      assert (s.messages + [m])[0] == s.messages[0];
      assert |s.messages| % 2 == 1 && |s.messages + [m]| == |s.messages| + 1;
    }
  }

  /** The answer to a pending send appends the assistant's turn at an even position and stops waiting. */
  lemma CompletePreservesValid(s: AdvisorState, catalog: seq<Movie>, reply: Value)
    requires Valid(s) && s.loading
    ensures Valid(Complete(s, catalog, reply))
  {
    AppendKeepsAlternation(s.messages, AssistantReply(catalog, reply));
    AppendKeepsBare(s.messages, AssistantReply(catalog, reply));
  }

  /** Every enabled event keeps the transcript well-formed. */
  lemma StepPreservesValid(s: AdvisorState, catalog: seq<Movie>, e: Event)
    requires Valid(s) && Enabled(s, e)
    ensures Valid(Step(s, catalog, e))
  {
    match e
    case Typed(_) =>
    case Sent => SubmitPreservesValid(s);
    case Resolved(reply) => CompletePreservesValid(s, catalog, reply);
  }

  /** A whole send from a well-formed state leaves a well-formed state, whatever the gateway answered. */
  lemma SendPreservesValid(s: AdvisorState, catalog: seq<Movie>, reply: Value)
    requires Valid(s)
    ensures Valid(SendAnswered(s, catalog, reply))
  {
    if Accepts(s) {
      SubmitPreservesValid(s);
      CompletePreservesValid(Submit(s), catalog, reply);
    }
  }

  /**
    When the request or the parse fails, the user still gets an answer: the
    fallback explanation with the movies of the first three catalog ids (the
    first three entries themselves when the catalog's ids are unique).
  */
  lemma FailedSendShowsFallbackPicks(s: AdvisorState, catalog: seq<Movie>, outcome: CallOutcome, parse: string -> Option<Value>)
    requires Accepts(s) && Failed(outcome, parse)
    ensures var t := SendAnswered(s, catalog, Answer(catalog, outcome, parse));
      && |t.messages| == |s.messages| + 2
      && t.messages[|s.messages| + 1].content == Str(FallbackExplanation)
      && t.messages[|s.messages| + 1].movies == Some(WithIds(catalog, FallbackIds(catalog)))
    ensures Distinct(Ids(catalog)) ==>
      WithIds(catalog, FallbackIds(catalog)) == catalog[..Min(3, |catalog|)]
  {
    WellShapedReplyShown(catalog, Fallback(catalog));
    if Distinct(Ids(catalog)) {
      WithIdsOfPrefix(catalog, Min(3, |catalog|));
    }
  }

  /**
    When the gateway's text parses, the user sees the assistant message for
    exactly that parsed value, whatever its shape.
  */
  lemma AnsweredSendShowsParsedReply(s: AdvisorState, catalog: seq<Movie>, outcome: CallOutcome, parse: string -> Option<Value>)
    requires Accepts(s) && !Failed(outcome, parse)
    ensures outcome.CallReturned? && parse(outcome.text).Some?
    ensures var t := SendAnswered(s, catalog, Answer(catalog, outcome, parse));
      && |t.messages| == |s.messages| + 2
      && t.messages[|s.messages| + 1] == AssistantReply(catalog, parse(outcome.text).value)
  {
  }
}

=== FILE: App.dfy ===
/**
  The application shell: which page is on top (home, sign-in, profile), the
  signed-in user, the movie whose details are open, the notification sidebar,
  and the hero and rows of the home page.
*/
module App {
  import opened Options
  import opened Types
  import opened MovieService
  import NotificationSidebar

  datatype View = Home | Auth | Profile

  datatype AppState = AppState(selected: Option<Movie>, notificationsOpen: bool, view: View, user: Option<UserProfile>)

  const Initial: AppState := AppState(None, false, Home, None)

  /** `handleOpenMovie`, shared by the search box, hero, rows, notifications, profile and advisor. */
  function OpenMovie(s: AppState, m: Movie): (t: AppState)
    ensures t.selected == Some(m) && t.view == s.view && t.user == s.user && t.notificationsOpen == s.notificationsOpen
  {
    s.(selected := Some(m))
  }

  /** Closing the details overlay. */
  function CloseMovie(s: AppState): (t: AppState)
    ensures t.selected.None? && t.view == s.view && t.user == s.user && t.notificationsOpen == s.notificationsOpen
  {
    s.(selected := None)
  }

  /** `handleProfileClick`: the profile for a signed-in user, the sign-in page otherwise. */
  function ProfileClick(s: AppState): (t: AppState)
    ensures t.view == Profile <==> s.user.Some?
    ensures t.view == Auth <==> s.user.None?
    ensures t.user == s.user && t.selected == s.selected && t.notificationsOpen == s.notificationsOpen
  {
    s.(view := if s.user.Some? then Profile else Auth)
  }

  /** `handleLogin`. */
  function Login(s: AppState, u: UserProfile): (t: AppState)
    ensures t.user == Some(u) && t.view == Home && t.selected == s.selected && t.notificationsOpen == s.notificationsOpen
  {
    s.(user := Some(u), view := Home)
  }

  /** `handleLogout`. */
  function Logout(s: AppState): (t: AppState)
    ensures t.user.None? && t.view == Home && t.selected == s.selected && t.notificationsOpen == s.notificationsOpen
  {
    s.(user := None, view := Home)
  }

  /** The back buttons of the sign-in and profile pages. */
  function Back(s: AppState): (t: AppState)
    ensures t.view == Home && t.user == s.user && t.selected == s.selected && t.notificationsOpen == s.notificationsOpen
  {
    s.(view := Home)
  }

  /** The badge on the bell: three notifications for a signed-in user, none otherwise. */
  function NotificationCount(s: AppState): (n: nat)
    ensures n > 0 <==> s.user.Some?
    ensures n <= 3
  {
    if s.user.Some? then 3 else 0
  }

  /** The sign-in page is rendered. */
  predicate AuthShown(s: AppState) {
    s.view == Auth
  }

  /** The profile page is rendered: the view is the profile and there is a user to show. */
  predicate ProfileShown(s: AppState) {
    s.view == Profile && s.user.Some?
  }

  // ---------------------------------------------------------------------------
  // Home page content

  /** `MOVIES[0]`: the first catalog entry, absent for an empty catalog. */
  function Hero(catalog: seq<Movie>): (h: Option<Movie>)
    ensures h.Some? <==> |catalog| > 0
    ensures h.Some? ==> h.value == catalog[0] && FirstWithId(catalog, h.value.id, 0)
  {
    if |catalog| == 0 then None else Some(catalog[0])
  }

  datatype Row = Row(title: string, movies: seq<Movie>)

  /**
    The four home-page rows, top to bottom: each is the matching catalog
    accessor's result, so it holds exactly the qualifying entries.
  */
  function Rows(catalog: seq<Movie>): (r: seq<Row>)
    ensures |r| == 4
    ensures r[0].title == "Trending Now" && r[1].title == "Recently Added"
    ensures r[2].title == "Sci-Fi Blockbusters" && r[3].title == "Laugh-Out-Loud Comedies"
    ensures r[0].movies == Trending(catalog) && r[1].movies == NewMovies(catalog)
    ensures r[2].movies == ByGenre(catalog, "Sci-Fi") && r[3].movies == ByGenre(catalog, "Comedy")
    ensures forall k :: 0 <= k < 4 ==> forall i :: 0 <= i < |r[k].movies| ==> r[k].movies[i] in catalog
    ensures forall i :: 0 <= i < |r[0].movies| ==> IsTrending(r[0].movies[i])
    ensures forall i :: 0 <= i < |r[1].movies| ==> IsNew(r[1].movies[i])
    ensures forall i :: 0 <= i < |r[2].movies| ==> "Sci-Fi" in r[2].movies[i].genre
    ensures forall i :: 0 <= i < |r[3].movies| ==> "Comedy" in r[3].movies[i].genre
    ensures forall i :: 0 <= i < |catalog| && IsTrending(catalog[i]) ==> catalog[i] in r[0].movies
    ensures forall i :: 0 <= i < |catalog| && IsNew(catalog[i]) ==> catalog[i] in r[1].movies
    ensures forall i :: 0 <= i < |catalog| && "Sci-Fi" in catalog[i].genre ==> catalog[i] in r[2].movies
    ensures forall i :: 0 <= i < |catalog| && "Comedy" in catalog[i].genre ==> catalog[i] in r[3].movies
  {
    [ Row("Trending Now", Trending(catalog)),
      Row("Recently Added", NewMovies(catalog)),
      Row("Sci-Fi Blockbusters", ByGenre(catalog, "Sci-Fi")),
      Row("Laugh-Out-Loud Comedies", ByGenre(catalog, "Comedy")) ]
  }

  // ---------------------------------------------------------------------------
  // Events and the reachable-state invariant

  datatype AppEvent =
    | OpenedMovie(movie: Movie)
    | ClosedMovie
    | ClickedProfile
    | LoggedIn(profile: UserProfile)
    | LoggedOut
    | WentBack
    | OpenedNotifications
    | ClosedNotifications
    | ClickedNotification(item: NotificationSidebar.NotificationItem)

  /** Events whose control is on screen: the page-specific buttons need their page. */
  predicate Enabled(s: AppState, e: AppEvent) {
    match e
    case LoggedIn(_) => AuthShown(s)
    case LoggedOut => ProfileShown(s)
    case WentBack => AuthShown(s) || ProfileShown(s)
    case ClickedNotification(_) => s.notificationsOpen
    case _ => true
  }

  function Step(s: AppState, catalog: seq<Movie>, e: AppEvent): AppState
    requires Enabled(s, e)
  {
    match e
    case OpenedMovie(m) => OpenMovie(s, m)
    case ClosedMovie => CloseMovie(s)
    case ClickedProfile => ProfileClick(s)
    case LoggedIn(u) => Login(s, u)
    case LoggedOut => Logout(s)
    case WentBack => Back(s)
    case OpenedNotifications => s.(notificationsOpen := true)
    case ClosedNotifications => s.(notificationsOpen := false)
    case ClickedNotification(item) =>
      var c := NotificationSidebar.HandleItemClick(catalog, item);
      if c.selected.Some? then OpenMovie(s, c.selected.value).(notificationsOpen := !c.closes) else s
  }

  /** The profile view is only ever entered with a user signed in. */
  predicate Valid(s: AppState) {
    s.view == Profile ==> s.user.Some?
  }

  lemma InitialValid()
    ensures Valid(Initial) && !AuthShown(Initial) && !ProfileShown(Initial) && NotificationCount(Initial) == 0
  {
  }

  /**
    Every event keeps the invariant, so in every reachable state the profile
    overlay's extra guard on the user is redundant: the view alone decides.
  */
  lemma StepPreservesValid(s: AppState, catalog: seq<Movie>, e: AppEvent)
    requires Valid(s) && Enabled(s, e)
    ensures Valid(Step(s, catalog, e))
    ensures ProfileShown(Step(s, catalog, e)) <==> Step(s, catalog, e).view == Profile
  {
  }

  /**
    A notification click either leaves the state alone or opens the movie the
    notification names and closes the sidebar; sign-in and page are untouched.
  */
  lemma NotificationClickOpensNamedMovie(s: AppState, catalog: seq<Movie>, item: NotificationSidebar.NotificationItem)
    requires s.notificationsOpen
    ensures var t := Step(s, catalog, ClickedNotification(item));
      || t == s
      || (&& t.selected.Some? && item.movieId == Some(t.selected.value.id) && !t.notificationsOpen
          && t.view == s.view && t.user == s.user)
  {
  }

  /** Signing out and then asking for the profile lands on the sign-in page with an empty badge. */
  lemma LogoutThenProfileGoesToAuth(s: AppState)
    requires ProfileShown(s)
    ensures var t := ProfileClick(Logout(s));
      AuthShown(t) && !ProfileShown(t) && NotificationCount(t) == 0
  {
  }
}

=== FILE: GeminiService.dfy ===
/**
  The recommendation gateway: it projects the catalog into a prompt context,
  asks the external model for a reply, and returns the parsed reply or, on any
  error, a fixed fallback. The network call and `JSON.parse` are parameters:
  `call` maps the prompt to the outcome of the request and `parse` maps reply
  text to the value `JSON.parse` produces, or to `None` when it throws. The
  parsed value is returned unchecked (`result as RecommendationResponse`), so
  the gateway's answer is a `Value` of any shape.
*/
module GeminiService {
  import opened Options
  import opened Seqs
  import opened Types
  import opened Json
  import MovieService

  /** The fields of a movie the model is shown. */
  datatype ContextEntry = ContextEntry(id: string, title: string, genre: seq<string>, description: string, year: int)

  /** Outcome of the request to the generative model. */
  datatype CallOutcome =
    | CallFailed          // rejected: network, credentials, quota, timeout
    | CallReturned(text: string)

  function Project(m: Movie): ContextEntry {
    ContextEntry(m.id, m.title, m.genre, m.description, m.year)
  }

  /** `MOVIES.map(m => ({id, title, genre, description, year}))`. */
  function MovieContext(catalog: seq<Movie>): (ctx: seq<ContextEntry>)
    ensures |ctx| == |catalog|
    ensures forall i :: 0 <= i < |catalog| ==>
      ctx[i].id == catalog[i].id && ctx[i].title == catalog[i].title && ctx[i].genre == catalog[i].genre
      && ctx[i].description == catalog[i].description && ctx[i].year == catalog[i].year
  {
    seq(|catalog|, i requires 0 <= i < |catalog| => Project(catalog[i]))
  }

  /** Movies differ in the context exactly when they differ in a projected field. */
  lemma ContextShowsOnlyProjectedFields(c1: seq<Movie>, c2: seq<Movie>)
    requires |c1| == |c2|
    ensures MovieContext(c1) == MovieContext(c2) <==>
      forall i :: 0 <= i < |c1| ==>
        c1[i].id == c2[i].id && c1[i].title == c2[i].title && c1[i].genre == c2[i].genre
        && c1[i].description == c2[i].description && c1[i].year == c2[i].year
  {
  }

  /**
    `JSON.stringify` of one context entry (keys in declaration order, no
    spaces): the id, title and synopsis appear in it quoted, the genre list as
    an array, and the year as a decimal number after its key.
  */
  function EntryJson(e: ContextEntry): (r: string)
    ensures IsInfix(Quote(e.id), r) && IsInfix(Quote(e.title), r) && IsInfix(Quote(e.description), r)
    ensures IsInfix(StringArray(e.genre), r)
    ensures IsInfix(",\"year\":" + IntToString(e.year), r)
  {
    var a := "{\"id\":";
    var b := ",\"title\":";
    var c := ",\"genre\":";
    var d := ",\"description\":";
    var y := ",\"year\":" + IntToString(e.year);
    var f := y + "}";
    InfixOfFourBlocks(a, Quote(e.id), b, Quote(e.title), c, StringArray(e.genre), d, Quote(e.description), f);
    InfixOfConcat([], y, "}");
    assert [] + y + "}" == f;
    InfixTransitive(y, f, a + Quote(e.id) + b + Quote(e.title) + c + StringArray(e.genre) + d + Quote(e.description) + f);
    a + Quote(e.id) + b + Quote(e.title) + c + StringArray(e.genre) + d + Quote(e.description) + f
  }

  /** `JSON.stringify(movieContext)`: an array in which every entry's text appears. */
  function ContextJson(ctx: seq<ContextEntry>): (r: string)
    ensures |r| >= 2 && r[0] == '[' && r[|r| - 1] == ']'
    ensures forall k :: 0 <= k < |ctx| ==> IsInfix(EntryJson(ctx[k]), r)
  {
    var parts := seq(|ctx|, i requires 0 <= i < |ctx| => EntryJson(ctx[i]));
    var r := "[" + JoinCommas(parts) + "]";
    forall k | 0 <= k < |ctx|
      ensures IsInfix(EntryJson(ctx[k]), r)
    {
      JoinCommasInfix(parts, k);
      InfixOfConcat("[", JoinCommas(parts), "]");
      InfixTransitive(EntryJson(ctx[k]), JoinCommas(parts), r);
    }
    r
  }

  const PromptHead: string := "\n    Based on the user's request: \""
  const PromptMiddle: string := "\", \n    select the most appropriate movies from our database.\n    \n    Database Context: "
  const PromptTail: string := "\n    \n    Return a JSON object with:\n    1. recommendedIds: An array of movie IDs that best match the request.\n    2. explanation: A friendly, conversational explanation (max 2 sentences) of why these movies were picked.\n  "

  /** The template `head${userInput}middle${context}tail`. */
  function Fill(head: string, userInput: string, middle: string, context: string, tail: string): (p: string)
    ensures |p| == |head| + |userInput| + |middle| + |context| + |tail|
    ensures IsPrefix(head, p)
    ensures p[|head|..|head| + |userInput|] == userInput
    ensures IsInfix(context, p)
  {
    var p := head + userInput + middle + context + tail;
    assert p[..|head|] == head;
    assert p[|head|..|head| + |userInput|] == userInput;
    InfixOfConcat(head + userInput + middle, context, tail);
    p
  }

  /**
    The prompt sent to the model: it opens with the fixed text and quotes the
    user input verbatim right after it.
  */
  function Prompt(userInput: string, catalog: seq<Movie>): (p: string)
    ensures IsPrefix(PromptHead, p) && |PromptHead| + |userInput| <= |p|
    ensures p[|PromptHead|..|PromptHead| + |userInput|] == userInput
  {
    Fill(PromptHead, userInput, PromptMiddle, ContextJson(MovieContext(catalog)), PromptTail)
  }

  /** The prompt contains the serialised catalog context. */
  lemma PromptCarriesContext(userInput: string, catalog: seq<Movie>)
    ensures IsInfix(ContextJson(MovieContext(catalog)), Prompt(userInput, catalog))
  {
  }

  lemma FillDeterminesInput(head: string, u1: string, u2: string, middle: string, context: string, tail: string)
    requires Fill(head, u1, middle, context, tail) == Fill(head, u2, middle, context, tail)
    ensures u1 == u2
  {
    var p := Fill(head, u1, middle, context, tail);
    assert |u1| == |u2|;
    assert u1 == p[|head|..|head| + |u1|];
  }

  /** Every catalog entry's id and title reach the model, quoted as JSON strings. */
  lemma PromptNamesEveryMovie(userInput: string, catalog: seq<Movie>, k: nat)
    requires k < |catalog|
    ensures IsInfix(Quote(catalog[k].id), Prompt(userInput, catalog))
    ensures IsInfix(Quote(catalog[k].title), Prompt(userInput, catalog))
  {
    var ctx := MovieContext(catalog);
    var p := Prompt(userInput, catalog);
    PromptCarriesContext(userInput, catalog);
    InfixTransitive(EntryJson(ctx[k]), ContextJson(ctx), p);
    InfixTransitive(Quote(ctx[k].id), EntryJson(ctx[k]), p);
    InfixTransitive(Quote(ctx[k].title), EntryJson(ctx[k]), p);
  }

  /** For a fixed catalog the prompt determines the user input: nothing is trimmed or rewritten. */
  lemma PromptDeterminesInput(u1: string, u2: string, catalog: seq<Movie>)
    requires Prompt(u1, catalog) == Prompt(u2, catalog)
    ensures u1 == u2
  {
    FillDeterminesInput(PromptHead, u1, u2, PromptMiddle, ContextJson(MovieContext(catalog)), PromptTail);
  }

  const FallbackExplanation: string := "I couldn't process your request perfectly, but here are some popular picks you might enjoy!"

  /** `MOVIES.slice(0, 3).map(m => m.id)`. */
  function FallbackIds(catalog: seq<Movie>): (ids: seq<string>)
    ensures |ids| == Min(3, |catalog|)
    ensures forall i :: 0 <= i < |ids| ==> ids[i] == catalog[i].id
  {
    Ids(catalog[..Min(3, |catalog|)])
  }

  /** The reply used whenever the request or the parse throws. */
  function Fallback(catalog: seq<Movie>): (r: RecommendationResponse)
    ensures r.recommendedIds == FallbackIds(catalog)
    ensures |r.explanation| > 0
  {
    RecommendationResponse(FallbackIds(catalog), FallbackExplanation)
  }

  /** The object literal `{recommendedIds, explanation}` as a JavaScript value. */
  function ResponseValue(r: RecommendationResponse): Value {
    Object([Member("recommendedIds", Array(StrValues(r.recommendedIds))), Member("explanation", Str(r.explanation))])
  }

  /** Reading the two fields back from a response object gives the response's ids and explanation. */
  lemma ResponseValueReadsBack(r: RecommendationResponse)
    ensures Property(ResponseValue(r), "recommendedIds") == Array(StrValues(r.recommendedIds))
    ensures StringItems(Property(ResponseValue(r), "recommendedIds").items) == r.recommendedIds
    ensures Property(ResponseValue(r), "explanation") == Str(r.explanation)
  {
    StringItemsOfStrValues(r.recommendedIds);
  }

  /** The request was rejected, or its text did not parse. */
  predicate Failed(outcome: CallOutcome, parse: string -> Option<Value>) {
    match outcome
    case CallFailed => true
    case CallReturned(text) => parse(text).None?
  }

  /**
    The `try`/`catch` of `getSmartRecommendations`: a parsed reply is returned
    as it is, without checking its ids or its shape; a failed request or
    unparseable text yields the fallback. It never fails.
  */
  function Answer(catalog: seq<Movie>, outcome: CallOutcome, parse: string -> Option<Value>): (r: Value)
    ensures Failed(outcome, parse) ==> r == ResponseValue(Fallback(catalog))
    ensures !Failed(outcome, parse) ==> Some(r) == parse(outcome.text)
  {
    match outcome
    case CallFailed => ResponseValue(Fallback(catalog))
    case CallReturned(text) => parse(text).GetOr(ResponseValue(Fallback(catalog)))
  }

  /** Asking the model about `userInput` failed. */
  predicate Fails(catalog: seq<Movie>, userInput: string, call: string -> CallOutcome, parse: string -> Option<Value>) {
    Failed(call(Prompt(userInput, catalog)), parse)
  }

  /**
    `getSmartRecommendations(userInput)`: the model is asked with the prompt
    built from the request, and the answer is the parsed reply unless
    something failed; there is no third possibility.
  */
  function Recommend(catalog: seq<Movie>, userInput: string, call: string -> CallOutcome, parse: string -> Option<Value>): (r: Value)
    ensures Fails(catalog, userInput, call, parse) ==> r == ResponseValue(Fallback(catalog))
    ensures !Fails(catalog, userInput, call, parse) ==> Some(r) == parse(call(Prompt(userInput, catalog)).text)
  {
    Answer(catalog, call(Prompt(userInput, catalog)), parse)
  }

  /**
    Every failure, whatever the query and whatever went wrong, produces the
    same well-shaped reply: the first three catalog ids and the fixed apology.
  */
  lemma FailuresYieldSameFallback(
    catalog: seq<Movie>,
    u1: string, call1: string -> CallOutcome, parse1: string -> Option<Value>,
    u2: string, call2: string -> CallOutcome, parse2: string -> Option<Value>)
    requires Fails(catalog, u1, call1, parse1) && Fails(catalog, u2, call2, parse2)
    ensures Recommend(catalog, u1, call1, parse1) == Recommend(catalog, u2, call2, parse2)
    ensures Recommend(catalog, u1, call1, parse1) == ResponseValue(RecommendationResponse(FallbackIds(catalog), FallbackExplanation))
  {
  }

  /** The shipped catalog falls back to its first three entries. */
  lemma ShippedFallback()
    ensures FallbackIds(MovieService.Movies) == ["1", "2", "3"]
  {
  }
}

=== FILE: Json.dfy ===
/**
  The part of `JSON.stringify` the recommendation prompt needs: string
  literals (ECMAScript's QuoteJSONString), integers, arrays of strings.
  The bodies of string literals and the decimal form of natural numbers have
  a reader here that undoes them, so that their round trips can be stated;
  for arrays, only that each element's text appears in the array's text.
*/
module Json {
  import opened Options
  import opened Seqs

  // ---------------------------------------------------------------------------
  // Strings

  /** Lower-case hexadecimal digit, as `JSON.stringify` writes in `\u00XX`. */
  function HexDigit(d: int): char
    requires 0 <= d < 16
  {
    if d < 10 then ('0' as int + d) as char else ('a' as int + d - 10) as char
  }

  function HexValue(c: char): Option<int> {
    if '0' <= c <= '9' then Some(c as int - '0' as int)
    else if 'a' <= c <= 'f' then Some(c as int - 'a' as int + 10)
    else if 'A' <= c <= 'F' then Some(c as int - 'A' as int + 10)
    else None
  }

  /**
    One character inside a JSON string literal: quote and backslash are
    escaped, the five control characters with a short form use it, the other
    control characters below U+0020 become `\u00XX`, everything else is kept.
  */
  function EscapeChar(c: char): string {
    if c == '"' then ['\\', '"']
    else if c == '\\' then ['\\', '\\']
    else if c as int == 0x08 then ['\\', 'b']
    else if c as int == 0x09 then ['\\', 't']
    else if c as int == 0x0A then ['\\', 'n']
    else if c as int == 0x0C then ['\\', 'f']
    else if c as int == 0x0D then ['\\', 'r']
    else if (c as int) < 0x20 then ['\\', 'u', '0', '0', HexDigit(c as int / 16), HexDigit(c as int % 16)]
    else [c]
  }

  function Escape(s: string): string {
    if |s| == 0 then [] else EscapeChar(s[0]) + Escape(s[1..])
  }

  /** `JSON.stringify(s)` for a string `s`. */
  function Quote(s: string): string {
    ['"'] + Escape(s) + ['"']
  }

  function Prepend(c: char, rest: Option<string>): Option<string> {
    match rest
    case Some(r) => Some([c] + r)
    case None => None
  }

  /** The character a two-character escape `\x` stands for, if `x` names one. */
  function ShortEscape(x: char): Option<char> {
    if x == '"' || x == '\\' || x == '/' then Some(x)
    else if x == 'b' then Some(0x08 as char)
    else if x == 't' then Some(0x09 as char)
    else if x == 'n' then Some(0x0A as char)
    else if x == 'f' then Some(0x0C as char)
    else if x == 'r' then Some(0x0D as char)
    else None
  }

  /** The code unit written by four hexadecimal digits, if they are digits. */
  function HexUnit(a: char, b: char, c: char, d: char): Option<int> {
    match (HexValue(a), HexValue(b), HexValue(c), HexValue(d))
    case (Some(w), Some(x), Some(y), Some(z)) => Some(((w * 16 + x) * 16 + y) * 16 + z)
    case _ => None
  }

  /** Reads the body of a JSON string literal back into the characters it denotes. */
  function Unescape(e: string): Option<string>
    decreases |e|
  {
    if |e| == 0 then Some([])
    else if e[0] == '\\' then
      if |e| < 2 then None
      else match ShortEscape(e[1])
        case Some(c) => Prepend(c, Unescape(e[2..]))
        case None =>
          if e[1] != 'u' || |e| < 6 then None
          else match HexUnit(e[2], e[3], e[4], e[5])
            case Some(n) =>
              if 0 <= n < 0xD800 || 0xE000 <= n < 0x11_0000 then Prepend(n as char, Unescape(e[6..])) else None
            case None => None
    else if e[0] == '"' || (e[0] as int) < 0x20 then None
    else Prepend(e[0], Unescape(e[1..]))
  }

  lemma HexRoundTrip(d: int)
    requires 0 <= d < 16
    ensures HexValue(HexDigit(d)) == Some(d)
  {
  }

  /** A two-character escape `\x` reads back as the character it stands for. */
  lemma UnescapeShort(c: char, x: char, rest: string)
    requires EscapeChar(c) == ['\\', x]
    ensures Unescape(EscapeChar(c) + rest) == Prepend(c, Unescape(rest))
  {
    var e := EscapeChar(c) + rest;
    assert e[0] == '\\' && e[1] == x && e[2..] == rest;
  }

  /** A `\u00XX` escape reads back as the control character it encodes. */
  lemma UnescapeHex(c: char, rest: string)
    requires (c as int) < 0x20
    requires EscapeChar(c) == ['\\', 'u', '0', '0', HexDigit(c as int / 16), HexDigit(c as int % 16)]
    ensures Unescape(EscapeChar(c) + rest) == Prepend(c, Unescape(rest))
  {
    var e := EscapeChar(c) + rest;
    assert e[0] == '\\' && e[1] == 'u' && e[6..] == rest;
    assert e[2] == '0' && e[3] == '0';
    assert e[4] == HexDigit(c as int / 16) && e[5] == HexDigit(c as int % 16);
    HexRoundTrip(c as int / 16);
    HexRoundTrip(c as int % 16);
    assert HexUnit(e[2], e[3], e[4], e[5]) == Some(((0 * 16 + 0) * 16 + c as int / 16) * 16 + c as int % 16);
  }

  lemma UnescapeChar(c: char, rest: string)
    ensures Unescape(EscapeChar(c) + rest) == Prepend(c, Unescape(rest))
  {
    if c == '"' || c == '\\' || c as int == 0x08 || c as int == 0x09 || c as int == 0x0A || c as int == 0x0C || c as int == 0x0D {
      UnescapeShort(c, EscapeChar(c)[1], rest);
    } else if (c as int) < 0x20 {
      UnescapeHex(c, rest);
    } else {
      var e := EscapeChar(c) + rest;
      assert e[0] == c && e[1..] == rest;
    }
  }

  /** Reading back an escaped string gives the original string. */
  lemma {:induction false} EscapeRoundTrip(s: string)
    ensures Unescape(Escape(s)) == Some(s)
  {
    if |s| > 0 {
      EscapeRoundTrip(s[1..]);
      UnescapeChar(s[0], Escape(s[1..]));
      assert [s[0]] + s[1..] == s;
    }
  }

  /** Escaping is injective: distinct strings are written differently. */
  lemma EscapeInjective(s: string, t: string)
    requires Escape(s) == Escape(t)
    ensures s == t
  {
    EscapeRoundTrip(s);
    EscapeRoundTrip(t);
  }

  // ---------------------------------------------------------------------------
  // Integers

  function DigitChar(d: int): char
    requires 0 <= d < 10
  {
    ('0' as int + d) as char
  }

  /** Decimal digits of `n`, most significant first, without leading zeros. */
  function NatToString(n: nat): string
    decreases n
  {
    if n < 10 then [DigitChar(n)] else NatToString(n / 10) + [DigitChar(n % 10)]
  }

  /** `JSON.stringify(i)` for an integral number `i`. */
  function IntToString(i: int): string {
    if i < 0 then ['-'] + NatToString(-i) else NatToString(i)
  }

  /** The value of a non-empty string of decimal digits. */
  function ParseNat(s: string): Option<nat>
    decreases |s|
  {
    if |s| == 0 || !('0' <= s[|s| - 1] <= '9') then None
    else
      var d := s[|s| - 1] as int - '0' as int;
      if |s| == 1 then Some(d)
      else match ParseNat(s[..|s| - 1])
        case Some(v) => Some(v * 10 + d)
        case None => None
  }

  lemma {:induction false} NatRoundTrip(n: nat)
    ensures ParseNat(NatToString(n)) == Some(n)
    decreases n
  {
    if n >= 10 {
      NatRoundTrip(n / 10);
      var s := NatToString(n);
      assert s[..|s| - 1] == NatToString(n / 10);
    }
  }

  // ---------------------------------------------------------------------------
  // Arrays

  /** The elements of `parts` separated by commas. */
  function JoinCommas(parts: seq<string>): string {
    if |parts| == 0 then []
    else if |parts| == 1 then parts[0]
    else parts[0] + [','] + JoinCommas(parts[1..])
  }

  /** Each part occurs, as a block, in the comma-separated list. */
  lemma {:induction false} JoinCommasInfix(parts: seq<string>, k: nat)
    requires k < |parts|
    ensures IsInfix(parts[k], JoinCommas(parts))
  {
    if |parts| == 1 {
      InfixOfConcat([], parts[0], []);
      assert [] + parts[0] + [] == parts[0];
    } else {
      var rest := JoinCommas(parts[1..]);
      assert JoinCommas(parts) == parts[0] + [','] + rest;
      if k == 0 {
        InfixOfConcat([], parts[0], [','] + rest);
        assert [] + parts[0] + ([','] + rest) == JoinCommas(parts);
      } else {
        JoinCommasInfix(parts[1..], k - 1);
        InfixOfConcat(parts[0] + [','], rest, []);
        assert parts[0] + [','] + rest + [] == JoinCommas(parts);
        InfixTransitive(parts[k], rest, JoinCommas(parts));
      }
    }
  }

  /** `JSON.stringify(ss)` for an array of strings: each element appears in it quoted. */
  function StringArray(ss: seq<string>): (r: string)
    ensures |r| >= 2 && r[0] == '[' && r[|r| - 1] == ']'
    ensures forall k :: 0 <= k < |ss| ==> IsInfix(Quote(ss[k]), r)
  {
    var parts := seq(|ss|, i requires 0 <= i < |ss| => Quote(ss[i]));
    var r := ['['] + JoinCommas(parts) + [']'];
    forall k | 0 <= k < |ss|
      ensures IsInfix(Quote(ss[k]), r)
    {
      JoinCommasInfix(parts, k);
      InfixOfConcat(['['], JoinCommas(parts), [']']);
      InfixTransitive(Quote(ss[k]), JoinCommas(parts), r);
    }
    r
  }
}

=== FILE: MovieService.dfy ===
/**
  The catalog provider: the fixed movie list and the read-only views over it
  (trending, recently added, by genre, the genre list, lookup by id).
  Every accessor takes the catalog as a parameter; `Movies` is the shipped one.
*/
module MovieService {
  import opened Options
  import opened Seqs
  import opened Types

  /**
    The shipped catalog, in definition order. Identifiers, titles, ratings,
    years, genres, durations, cast lists and flags are those of the
    application's data; synopses and image references are left empty.
  */
  const Movies: seq<Movie> := [
    Interstellar, DarkKnight, Inception, GrandBudapestHotel,
    Parasite, DuneTwo, BladeRunner2049, EverythingEverywhere
  ]

  const Interstellar: Movie :=
    Movie(
      "1", "Interstellar", "", "", "",
      8.7, 2014,
      ["Sci-Fi", "Drama", "Adventure"], "2h 49m",
      ["Matthew McConaughey", "Anne Hathaway"],
      Some(true), None)

  const DarkKnight: Movie :=
    Movie(
      "2", "The Dark Knight", "", "", "",
      9.0, 2008,
      ["Action", "Crime", "Drama"], "2h 32m",
      ["Christian Bale", "Heath Ledger"],
      Some(true), None)

  const Inception: Movie :=
    Movie(
      "3", "Inception", "", "", "",
      8.8, 2010,
      ["Action", "Sci-Fi", "Thriller"], "2h 28m",
      ["Leonardo DiCaprio", "Joseph Gordon-Levitt"],
      Some(true), None)

  const GrandBudapestHotel: Movie :=
    Movie(
      "4", "The Grand Budapest Hotel", "", "", "",
      8.1, 2014,
      ["Comedy", "Drama", "Adventure"], "1h 39m",
      ["Ralph Fiennes", "Tony Revolori"],
      Some(false), None)

  const Parasite: Movie :=
    Movie(
      "5", "Parasite", "", "", "",
      8.5, 2019,
      ["Drama", "Thriller", "Comedy"], "2h 12m",
      ["Song Kang-ho", "Lee Sun-kyun"],
      None, Some(true))

  const DuneTwo: Movie :=
    Movie(
      "6", "Dune: Part Two", "", "", "",
      8.9, 2024,
      ["Sci-Fi", "Adventure", "Action"], "2h 46m",
      ["Timothée Chalamet", "Zendaya"],
      None, Some(true))

  const BladeRunner2049: Movie :=
    Movie(
      "7", "Blade Runner 2049", "", "", "",
      8.0, 2017,
      ["Sci-Fi", "Mystery", "Drama"], "2h 44m",
      ["Ryan Gosling", "Harrison Ford"],
      None, None)

  const EverythingEverywhere: Movie :=
    Movie(
      "8", "Everything Everywhere All at Once", "", "", "",
      7.8, 2022,
      ["Sci-Fi", "Adventure", "Action", "Comedy"], "2h 19m",
      ["Michelle Yeoh", "Ke Huy Quan"],
      None, None)

  /** `m.isTrending` is truthy: an absent flag counts as false. */
  predicate IsTrending(m: Movie) {
    m.isTrending == Some(true)
  }

  /** `m.isNew` is truthy: an absent flag counts as false. */
  predicate IsNew(m: Movie) {
    m.isNew == Some(true)
  }

  /** `m.genre.includes(genre)`: exact, case-sensitive membership. */
  predicate HasGenre(m: Movie, genre: string) {
    genre in m.genre
  }

  /** `getTrendingMovies`: the trending entries, in catalog order. */
  function Trending(catalog: seq<Movie>): (r: seq<Movie>)
    ensures forall i :: 0 <= i < |r| ==> r[i] in catalog && IsTrending(r[i])
    ensures forall i :: 0 <= i < |catalog| && IsTrending(catalog[i]) ==> catalog[i] in r
  {
    FilterMembers(catalog, IsTrending);
    Filter(catalog, IsTrending)
  }

  /** `getNewMovies`: the recently added entries, in catalog order. */
  function NewMovies(catalog: seq<Movie>): (r: seq<Movie>)
    ensures forall i :: 0 <= i < |r| ==> r[i] in catalog && IsNew(r[i])
    ensures forall i :: 0 <= i < |catalog| && IsNew(catalog[i]) ==> catalog[i] in r
  {
    FilterMembers(catalog, IsNew);
    Filter(catalog, IsNew)
  }

  /** `getMoviesByGenre(genre)`: the entries tagged `genre`, in catalog order. */
  function ByGenre(catalog: seq<Movie>, genre: string): (r: seq<Movie>)
    ensures forall i :: 0 <= i < |r| ==> r[i] in catalog && genre in r[i].genre
    ensures forall i :: 0 <= i < |catalog| && genre in catalog[i].genre ==> catalog[i] in r
  {
    FilterMembers(catalog, m => HasGenre(m, genre));
    Filter(catalog, m => HasGenre(m, genre))
  }

  /** `MOVIES.flatMap(m => m.genre)`: every genre tag, movie by movie. */
  function GenreTags(catalog: seq<Movie>): (r: seq<string>)
    ensures forall i, j :: 0 <= i < |catalog| && 0 <= j < |catalog[i].genre| ==> catalog[i].genre[j] in r
    ensures forall k :: 0 <= k < |r| ==> exists i :: 0 <= i < |catalog| && r[k] in catalog[i].genre
  {
    if |catalog| == 0 then []
    else
      var rest := GenreTags(catalog[1..]);
      assert forall k :: 0 <= k < |rest| ==> exists i :: 0 <= i < |catalog| && rest[k] in catalog[i].genre by {
        forall k | 0 <= k < |rest|
          ensures exists i :: 0 <= i < |catalog| && rest[k] in catalog[i].genre
        {
          var i :| 0 <= i < |catalog[1..]| && rest[k] in catalog[1..][i].genre;
          assert catalog[1..][i] == catalog[i + 1];
        }
      }
      catalog[0].genre + rest
  }

  /** One movie contributes its own genre list, in order and with its repeats. */
  lemma GenreTagsOfOne(m: Movie)
    ensures GenreTags([m]) == m.genre
  {
    assert [m][1..] == [];
  }

  /**
    Flattening distributes over concatenation: the tags of `a + b` are the
    tags of `a` followed by those of `b`. With `GenreTagsOfOne` this fixes the
    order and the multiplicity of every tag.
  */
  lemma {:induction false} GenreTagsAppend(a: seq<Movie>, b: seq<Movie>)
    ensures GenreTags(a + b) == GenreTags(a) + GenreTags(b)
  {
    if |a| == 0 {
      assert a + b == b;
    } else {
      assert (a + b)[0] == a[0];
      assert (a + b)[1..] == a[1..] + b;
      GenreTagsAppend(a[1..], b);
    }
  }

  /** `getAllGenres`: the genre tags without repeats, in order of first appearance. */
  function AllGenres(catalog: seq<Movie>): (r: seq<string>)
    ensures Distinct(r)
    ensures forall i, j :: 0 <= i < |catalog| && 0 <= j < |catalog[i].genre| ==> catalog[i].genre[j] in r
    ensures forall k :: 0 <= k < |r| ==> exists i :: 0 <= i < |catalog| && r[k] in catalog[i].genre
  {
    var tags := GenreTags(catalog);
    var r := Dedup(tags);
    assert forall k :: 0 <= k < |r| ==> exists i :: 0 <= i < |catalog| && r[k] in catalog[i].genre by {
      forall k | 0 <= k < |r|
        ensures exists i :: 0 <= i < |catalog| && r[k] in catalog[i].genre
      {
        var n := FirstIndex(tags, r[k]);
      }
    }
    r
  }

  /** Entry `i` is the first one of `catalog` whose id is `id`. */
  predicate FirstWithId(catalog: seq<Movie>, id: string, i: int) {
    0 <= i < |catalog| && catalog[i].id == id && forall j :: 0 <= j < i ==> catalog[j].id != id
  }

  /** `MOVIES.find(m => m.id === id)`: the first entry carrying `id`, if any. */
  function FindById(catalog: seq<Movie>, id: string): (r: Option<Movie>)
    ensures r.None? <==> forall i :: 0 <= i < |catalog| ==> catalog[i].id != id
    ensures r.Some? ==> exists i :: FirstWithId(catalog, id, i) && catalog[i] == r.value
  {
    if |catalog| == 0 then None
    else if catalog[0].id == id then
      assert FirstWithId(catalog, id, 0);
      Some(catalog[0])
    else
      var r := FindById(catalog[1..], id);
      assert r.Some? ==> exists i :: FirstWithId(catalog, id, i) && catalog[i] == r.value by {
        if r.Some? {
          var i :| FirstWithId(catalog[1..], id, i) && catalog[1..][i] == r.value;
          assert FirstWithId(catalog, id, i + 1) by {
            forall j | 0 <= j < i + 1
              ensures catalog[j].id != id
            {
              if j > 0 {
                assert catalog[j] == catalog[1..][j - 1];
              }
            }
          }
        }
      }
      r
  }

  /**
    `MOVIES.filter(m => ids.includes(m.id))`: the catalog entries whose id is
    listed, in catalog order, every copy of a repeated entry kept.
  */
  function WithIds(catalog: seq<Movie>, ids: seq<string>): (r: seq<Movie>)
    ensures forall i :: 0 <= i < |r| ==> r[i] in catalog && r[i].id in ids
    ensures forall i :: 0 <= i < |catalog| && catalog[i].id in ids ==> catalog[i] in r
    ensures forall x :: multiset(r)[x] == if x.id in ids then multiset(catalog)[x] else 0
  {
    var p := (m: Movie) => m.id in ids;
    FilterMembers(catalog, p);
    assert forall x :: multiset(Filter(catalog, p))[x] == if p(x) then multiset(catalog)[x] else 0 by {
      forall x
        ensures multiset(Filter(catalog, p))[x] == if p(x) then multiset(catalog)[x] else 0
      {
        FilterCounts(catalog, p, x);
      }
    }
    Filter(catalog, p)
  }

  // ---------------------------------------------------------------------------
  // Properties

  /**
    The accessors keep catalog order and multiplicities: each result is a
    subsequence of the catalog holding every copy of a qualifying entry and no
    other entry.
  */
  lemma AccessorsAreOrderedSelections(catalog: seq<Movie>, genre: string)
    ensures IsSubseq(Trending(catalog), catalog)
    ensures IsSubseq(NewMovies(catalog), catalog)
    ensures IsSubseq(ByGenre(catalog, genre), catalog)
    ensures forall m :: multiset(Trending(catalog))[m] == if IsTrending(m) then multiset(catalog)[m] else 0
    ensures forall m :: multiset(NewMovies(catalog))[m] == if IsNew(m) then multiset(catalog)[m] else 0
    ensures forall m :: multiset(ByGenre(catalog, genre))[m] == if genre in m.genre then multiset(catalog)[m] else 0
  {
    FilterIsSubseq(catalog, IsTrending);
    FilterIsSubseq(catalog, IsNew);
    FilterIsSubseq(catalog, m => HasGenre(m, genre));
    forall m
      ensures multiset(Trending(catalog))[m] == if IsTrending(m) then multiset(catalog)[m] else 0
    {
      FilterCounts(catalog, IsTrending, m);
    }
    forall m
      ensures multiset(NewMovies(catalog))[m] == if IsNew(m) then multiset(catalog)[m] else 0
    {
      FilterCounts(catalog, IsNew, m);
    }
    forall m
      ensures multiset(ByGenre(catalog, genre))[m] == if genre in m.genre then multiset(catalog)[m] else 0
    {
      FilterCounts(catalog, m => HasGenre(m, genre), m);
    }
  }

  /** No accessor returns more entries than the catalog holds. */
  lemma AccessorsBounded(catalog: seq<Movie>, genre: string)
    ensures |Trending(catalog)| <= |catalog|
    ensures |NewMovies(catalog)| <= |catalog|
    ensures |ByGenre(catalog, genre)| <= |catalog|
  {
    AccessorsAreOrderedSelections(catalog, genre);
    SubseqLength(Trending(catalog), catalog);
    SubseqLength(NewMovies(catalog), catalog);
    SubseqLength(ByGenre(catalog, genre), catalog);
  }

  /** Genres are listed in the order in which the catalog first mentions them. */
  lemma AllGenresFirstOccurrenceOrder(catalog: seq<Movie>)
    ensures forall i, j :: 0 <= i < j < |AllGenres(catalog)| ==>
      FirstIndex(GenreTags(catalog), AllGenres(catalog)[i]) < FirstIndex(GenreTags(catalog), AllGenres(catalog)[j])
  {
    DedupOrder(GenreTags(catalog));
  }

  /** The shipped catalog's ids are '1' to '8', pairwise distinct. */
  lemma CatalogIdsDistinct()
    ensures Ids(Movies) == ["1", "2", "3", "4", "5", "6", "7", "8"]
    ensures Distinct(Ids(Movies))
  {
  }

  /** Selection by ids keeps catalog order and never repeats an entry of a duplicate-free catalog. */
  lemma WithIdsIsCatalogOrdered(catalog: seq<Movie>, ids: seq<string>)
    ensures IsSubseq(WithIds(catalog, ids), catalog)
    ensures Distinct(catalog) ==> Distinct(WithIds(catalog, ids))
  {
    FilterIsSubseq(catalog, (m: Movie) => m.id in ids);
    if Distinct(catalog) {
      FilterDistinct(catalog, (m: Movie) => m.id in ids);
    }
  }

  /**
    Only the set of listed ids matters: their order, their repetitions and
    the ids the catalog lacks make no difference.
  */
  lemma WithIdsDependsOnIdSetOnly(catalog: seq<Movie>, ids1: seq<string>, ids2: seq<string>)
    requires forall i :: 0 <= i < |catalog| ==> (catalog[i].id in ids1 <==> catalog[i].id in ids2)
    ensures WithIds(catalog, ids1) == WithIds(catalog, ids2)
  {
    FilterCongruent(catalog, (m: Movie) => m.id in ids1, (m: Movie) => m.id in ids2);
  }

  /**
    In a catalog whose ids are unique, selecting by a list of ids yields at
    most one entry per distinct listed id, hence no more entries than the list.
  */
  lemma WithIdsAtMostIds(catalog: seq<Movie>, ids: seq<string>)
    requires Distinct(Ids(catalog))
    ensures |WithIds(catalog, ids)| <= |Elements(ids)| <= |ids|
  {
    var r := WithIds(catalog, ids);
    assert Distinct(catalog) by {
      forall i, j | 0 <= i < j < |catalog|
        ensures catalog[i] != catalog[j]
      {
        assert Ids(catalog)[i] != Ids(catalog)[j];
      }
    }
    WithIdsIsCatalogOrdered(catalog, ids);
    assert Distinct(Ids(r)) by {
      forall i, j | 0 <= i < j < |r|
        ensures Ids(r)[i] != Ids(r)[j]
      {
        var a :| 0 <= a < |catalog| && catalog[a] == r[i];
        var b :| 0 <= b < |catalog| && catalog[b] == r[j];
        assert a != b;
        assert Ids(catalog)[a] != Ids(catalog)[b] || a == b;
      }
    }
    ElementsBound(Ids(r));
    assert Elements(Ids(r)) <= Elements(ids) by {
      forall x | x in Elements(Ids(r))
        ensures x in Elements(ids)
      {
        var i :| 0 <= i < |Ids(r)| && Ids(r)[i] == x;
        assert r[i].id in ids;
      }
    }
    SubsetCard(Elements(Ids(r)), Elements(ids));
    ElementsBound(ids);
  }

  /** In a catalog with unique ids, selecting the ids of the first `k` entries gives back those entries. */
  lemma WithIdsOfPrefix(catalog: seq<Movie>, k: nat)
    requires k <= |catalog| && Distinct(Ids(catalog))
    ensures WithIds(catalog, Ids(catalog[..k])) == catalog[..k]
  {
    var ids := Ids(catalog[..k]);
    forall i | 0 <= i < |catalog|
      ensures (catalog[i].id in ids) == (i < k)
    {
      if i < k {
        assert ids[i] == catalog[i].id;
      } else {
        forall j | 0 <= j < |ids|
          ensures ids[j] != catalog[i].id
        {
          assert ids[j] == Ids(catalog)[j] && catalog[i].id == Ids(catalog)[i];
        }
      }
    }
    FilterSplit(catalog, (m: Movie) => m.id in ids, k);
  }
}

=== FILE: Navbar.dfy ===
/**
  The search box of the navigation bar: the suggestion list computed from the
  query, and the state machine of the query, the dropdown, the box and the
  highlighted suggestion driven by typing, the keyboard and selection.
*/
module Navbar {
  import opened Options
  import opened Seqs
  import opened Text
  import opened Types

  const MaxSuggestions: nat := 5

  /** Title, some genre or some cast member contains `q` once lower-cased. */
  predicate MatchesQuery(m: Movie, q: string) {
    || IsInfix(q, Lower(m.title))
    || (exists g :: g in m.genre && IsInfix(q, Lower(g)))
    || (exists c :: c in m.cast && IsInfix(q, Lower(c)))
  }

  /** Every catalog entry matching `q`, in catalog order. */
  function Matches(catalog: seq<Movie>, q: string): (r: seq<Movie>)
    ensures forall i :: 0 <= i < |r| ==> r[i] in catalog && MatchesQuery(r[i], q)
    ensures forall i :: 0 <= i < |catalog| && MatchesQuery(catalog[i], q) ==> catalog[i] in r
    ensures IsSubseq(r, catalog)
    ensures forall x :: multiset(r)[x] == if MatchesQuery(x, q) then multiset(catalog)[x] else 0
  {
    var p := (m: Movie) => MatchesQuery(m, q);
    FilterMembers(catalog, p);
    FilterIsSubseq(catalog, p);
    assert forall x :: multiset(Filter(catalog, p))[x] == if p(x) then multiset(catalog)[x] else 0 by {
      forall x
        ensures multiset(Filter(catalog, p))[x] == if p(x) then multiset(catalog)[x] else 0
      {
        FilterCounts(catalog, p, x);
      }
    }
    Filter(catalog, p)
  }

  /**
    The `suggestions` memo: nothing for a blank query, otherwise the first
    five entries matching the lower-cased query. The query is lower-cased but
    not trimmed before matching.
  */
  function Suggestions(catalog: seq<Movie>, query: string): (r: seq<Movie>)
    ensures |r| <= MaxSuggestions
    ensures IsBlank(query) ==> r == []
    ensures forall i :: 0 <= i < |r| ==> r[i] in catalog && MatchesQuery(r[i], Lower(query))
  {
    if IsBlank(query) then []
    else
      var all := Matches(catalog, Lower(query));
      all[..Min(MaxSuggestions, |all|)]
  }

  /**
    Suggestions are the first matches in catalog order: a prefix of all the
    matches, as long as it can be up to five, and a subsequence of the catalog.
  */
  lemma SuggestionsAreFirstMatches(catalog: seq<Movie>, query: string)
    requires !IsBlank(query)
    ensures IsPrefix(Suggestions(catalog, query), Matches(catalog, Lower(query)))
    ensures |Suggestions(catalog, query)| == Min(MaxSuggestions, |Matches(catalog, Lower(query))|)
    ensures IsSubseq(Suggestions(catalog, query), catalog)
  {
    var all := Matches(catalog, Lower(query));
    FilterIsSubseq(catalog, (m: Movie) => MatchesQuery(m, Lower(query)));
    PrefixIsSubseq(all, Min(MaxSuggestions, |all|));
    SubseqTransitive(Suggestions(catalog, query), all, catalog);
  }

  /** Fewer than five suggestions means every matching entry is among them. */
  lemma ShortListIsComplete(catalog: seq<Movie>, query: string)
    requires !IsBlank(query) && |Suggestions(catalog, query)| < MaxSuggestions
    ensures forall i :: 0 <= i < |catalog| && MatchesQuery(catalog[i], Lower(query)) ==>
      catalog[i] in Suggestions(catalog, query)
  {
  }

  // ---------------------------------------------------------------------------
  // Search state

  datatype SearchState = SearchState(query: string, showSuggestions: bool, searchVisible: bool, selectedIndex: int)

  const InitialSearch: SearchState := SearchState([], false, false, -1)

  datatype Key = ArrowDown | ArrowUp | Enter | Tab | Escape | OtherKey

  /** A transition's new state and the movie it hands to `onSelectMovie`, if any. */
  datatype Outcome = Outcome(state: SearchState, selected: Option<Movie>)

  /** The search icon opens the box. */
  function OpenSearch(s: SearchState): (t: SearchState)
    ensures t.searchVisible && t.query == s.query && t.selectedIndex == s.selectedIndex
    ensures t.showSuggestions == s.showSuggestions
  {
    s.(searchVisible := true)
  }

  /**
    Typing (`onChange`): the query is replaced and the dropdown shown. A new
    query yields a new suggestions array, whose effect resets the highlight.
  */
  function Edit(s: SearchState, text: string): (t: SearchState)
    ensures t.query == text && t.showSuggestions && t.searchVisible == s.searchVisible
    ensures t.selectedIndex == if text == s.query then s.selectedIndex else -1
  {
    SearchState(text, true, s.searchVisible, if text == s.query then s.selectedIndex else -1)
  }

  /** Focusing the box shows the dropdown. */
  function Focus(s: SearchState): (t: SearchState)
    ensures t.showSuggestions
    ensures t.query == s.query && t.searchVisible == s.searchVisible && t.selectedIndex == s.selectedIndex
  {
    s.(showSuggestions := true)
  }

  /** The close button hides the box and clears the query. */
  function CloseSearch(s: SearchState): (t: SearchState)
    ensures !t.searchVisible && t.query == [] && t.showSuggestions == s.showSuggestions
    ensures t.selectedIndex == if s.query == [] then s.selectedIndex else -1
  {
    Edit(s, []).(searchVisible := false, showSuggestions := s.showSuggestions)
  }

  /** Pointing at a rendered suggestion (one of `count`) highlights it. */
  function Hover(s: SearchState, count: nat, i: int): (t: SearchState)
    requires s.showSuggestions && s.searchVisible && 0 <= i < count
    ensures t.selectedIndex == i && t.query == s.query
    ensures t.showSuggestions == s.showSuggestions && t.searchVisible == s.searchVisible
  {
    s.(selectedIndex := i)
  }

  /** `handleSelect`: forward the movie and reset the whole search. */
  function Select(s: SearchState, m: Movie): (o: Outcome)
    ensures o.selected == Some(m)
    ensures o.state == SearchState([], false, false, -1)
  {
    Outcome(SearchState([], false, false, -1), Some(m))
  }

  /** `handleKeyDown`, against the suggestions `sugg` currently on screen. */
  function KeyDown(s: SearchState, sugg: seq<Movie>, key: Key): (o: Outcome)
    ensures o.selected.Some? ==> o.selected.value in sugg && o == Select(s, o.selected.value)
    ensures key == ArrowDown ==>
      o == Outcome(s.(selectedIndex := if s.selectedIndex < |sugg| - 1 then s.selectedIndex + 1 else s.selectedIndex), None)
    ensures key == ArrowUp ==> o == Outcome(s.(selectedIndex := if s.selectedIndex > 0 then s.selectedIndex - 1 else -1), None)
    ensures key == Enter && 0 <= s.selectedIndex < |sugg| ==> o.selected == Some(sugg[s.selectedIndex])
    ensures key == Enter && !(0 <= s.selectedIndex < |sugg|) && |sugg| > 0 ==> o.selected == Some(sugg[0])
    ensures key == Enter && |sugg| == 0 ==> o == Outcome(s, None)
    ensures key == Tab ==> o.selected.Some? == (|sugg| > 0 && s.showSuggestions)
    ensures key == Tab && o.selected.Some? ==> o.selected == Some(sugg[0])
    ensures key == Tab && o.selected.None? ==> o.state == s
    ensures key == Escape ==> o == Outcome(s.(showSuggestions := false, searchVisible := false), None)
    ensures key == OtherKey ==> o == Outcome(s, None)
  {
    var i := s.selectedIndex;
    match key
    case ArrowDown => Outcome(s.(selectedIndex := if i < |sugg| - 1 then i + 1 else i), None)
    case ArrowUp => Outcome(s.(selectedIndex := if i > 0 then i - 1 else -1), None)
    case Enter =>
      if 0 <= i < |sugg| then Select(s, sugg[i])
      else if |sugg| > 0 then Select(s, sugg[0])
      else Outcome(s, None)
    case Tab => if |sugg| > 0 && s.showSuggestions then Select(s, sugg[0]) else Outcome(s, None)
    case Escape => Outcome(s.(showSuggestions := false, searchVisible := false), None)
    case OtherKey => Outcome(s, None)
  }

  // ---------------------------------------------------------------------------
  // The highlight stays within the list

  /** The highlighted index is -1 (none) or a position in the current suggestions. */
  predicate IndexInRange(s: SearchState, catalog: seq<Movie>) {
    -1 <= s.selectedIndex < |Suggestions(catalog, s.query)|
  }

  /** The highlight fits a list of `count` suggestions. */
  predicate Fits(s: SearchState, count: nat) {
    -1 <= s.selectedIndex < count
  }

  datatype SearchEvent =
    | Opened | Typed(text: string) | Focused | Closed
    | Hovered(index: int) | Pressed(key: Key) | Clicked(movie: Movie)

  /** Events the rendered page can deliver while `sugg` is listed: only a shown suggestion can be hovered or clicked. */
  predicate Deliverable(s: SearchState, sugg: seq<Movie>, e: SearchEvent) {
    match e
    case Hovered(i) => s.showSuggestions && s.searchVisible && 0 <= i < |sugg|
    case Clicked(m) => s.showSuggestions && s.searchVisible && m in sugg
    case _ => true
  }

  /** One event, with `sugg` the suggestions currently listed. */
  function SearchStep(s: SearchState, sugg: seq<Movie>, e: SearchEvent): Outcome
    requires Deliverable(s, sugg, e)
  {
    match e
    case Opened => Outcome(OpenSearch(s), None)
    case Typed(text) => Outcome(Edit(s, text), None)
    case Focused => Outcome(Focus(s), None)
    case Closed => Outcome(CloseSearch(s), None)
    case Hovered(i) => Outcome(Hover(s, |sugg|, i), None)
    case Pressed(key) => KeyDown(s, sugg, key)
    case Clicked(m) => Select(s, m)
  }

  lemma InitialInRange(catalog: seq<Movie>)
    ensures IndexInRange(InitialSearch, catalog)
  {
  }

  /**
    Every deliverable event either keeps the query and a highlight that fits
    the listed suggestions or clears the highlight, and hands on only a listed
    suggestion.
  */
  lemma SearchStepKeepsFit(s: SearchState, sugg: seq<Movie>, e: SearchEvent)
    requires Fits(s, |sugg|) && Deliverable(s, sugg, e)
    ensures var t := SearchStep(s, sugg, e).state;
      t.selectedIndex == -1 || (t.query == s.query && Fits(t, |sugg|))
    ensures SearchStep(s, sugg, e).selected.Some? ==> SearchStep(s, sugg, e).selected.value in sugg
  {
    match e
    case Pressed(key) => KeyDownKeepsFit(s, sugg, key);
    case _ =>
  }

  /**
    Since the listed suggestions are those of the current query, every
    deliverable event keeps the highlight within [-1, |suggestions| - 1].
  */
  lemma SearchStepKeepsIndexInRange(s: SearchState, catalog: seq<Movie>, e: SearchEvent)
    requires IndexInRange(s, catalog) && Deliverable(s, Suggestions(catalog, s.query), e)
    ensures IndexInRange(SearchStep(s, Suggestions(catalog, s.query), e).state, catalog)
  {
    SearchStepKeepsFit(s, Suggestions(catalog, s.query), e);
  }

  /** A key press either keeps the query and a highlight that fits, or clears the highlight. */
  lemma KeyDownKeepsFit(s: SearchState, sugg: seq<Movie>, key: Key)
    requires Fits(s, |sugg|)
    ensures var t := KeyDown(s, sugg, key).state;
      t.selectedIndex == -1 || (t.query == s.query && Fits(t, |sugg|))
  {
  }
}

=== FILE: NotificationSidebar.dfy ===
/**
  The notification sidebar: the fixed notification list and what clicking an
  item does to the movie selection and the sidebar.
*/
module NotificationSidebar {
  import opened Options
  import opened Types
  import MovieService

  /** The `type` of a notification: 'recommendation', 'trending' or 'alert'. */
  datatype Kind = Recommendation | Trending | Alert

  /** A notification; only recommendation and trending items point at a movie. */
  datatype NotificationItem = NotificationItem(
    id: string,
    kind: Kind,
    title: string,
    message: string,
    time: string,
    movieId: Option<string>
  )

  /** The four notifications, in display order; messages are left out. */
  const Notifications: seq<NotificationItem> := [
    NotificationItem("n1", Recommendation, "Personalized Pick", "", "2 mins ago", Some("1")),
    NotificationItem("n2", Trending, "Rising Rapidly", "", "1 hour ago", Some("6")),
    NotificationItem("n3", Alert, "Account Update", "", "5 hours ago", None),
    NotificationItem("n4", Recommendation, "Based on Inception", "", "1 day ago", Some("7"))
  ]

  /** The effects of a click: the movie handed to `onSelectMovie`, if any, and whether `onClose` ran. */
  datatype Click = Click(selected: Option<Movie>, closes: bool)

  /**
    `handleItemClick`: an item with a (non-empty) movie id that the catalog
    knows selects the first entry carrying it and then closes the sidebar;
    every other click does nothing.
  */
  function HandleItemClick(catalog: seq<Movie>, item: NotificationItem): (c: Click)
    ensures c.closes <==> c.selected.Some?
    ensures c.selected.Some? <==>
      item.movieId.Some? && item.movieId.value != "" &&
      exists i :: 0 <= i < |catalog| && catalog[i].id == item.movieId.value
    ensures c.selected.Some? ==> exists i :: MovieService.FirstWithId(catalog, item.movieId.value, i) && catalog[i] == c.selected.value
  {
    match item.movieId
    case None => Click(None, false)
    case Some(id) =>
      if id == "" then Click(None, false)
      else
        match MovieService.FindById(catalog, id)
        case None => Click(None, false)
        case Some(m) => Click(Some(m), true)
  }

  /** Every movie a shipped notification points at is in the shipped catalog. */
  lemma NotificationTargetsExist()
    ensures forall k :: 0 <= k < |Notifications| && Notifications[k].movieId.Some? ==>
      HandleItemClick(MovieService.Movies, Notifications[k]).selected.Some?
  {
    assert MovieService.Movies[0].id == "1" && MovieService.Movies[5].id == "6" && MovieService.Movies[6].id == "7";
  }
}

=== FILE: Options.dfy ===
/** The optional value used wherever the source has `undefined`, a `?` field or `| null`. */
module Options {

  datatype Option<+T> = None | Some(value: T) {

    /** The carried value, or `default` when there is none. */
    function GetOr(default: T): T {
      match this
      case Some(v) => v
      case None => default
    }
  }
}

=== FILE: ProfilePage.dfy ===
/**
  The profile page's derived data: the liked movies, the rated movies paired
  with the user's scores, and the two activity counters.
*/
module ProfilePage {
  import opened Options
  import opened Seqs
  import opened Types
  import opened MovieService

  /** The liked-movies grid: catalog entries whose id the user liked, in catalog order. */
  function LikedMovies(catalog: seq<Movie>, user: UserProfile): (r: seq<Movie>)
    ensures forall i :: 0 <= i < |r| ==> r[i] in catalog && r[i].id in user.likedMovieIds
    ensures forall i :: 0 <= i < |catalog| && catalog[i].id in user.likedMovieIds ==> catalog[i] in r
    ensures forall x :: multiset(r)[x] == if x.id in user.likedMovieIds then multiset(catalog)[x] else 0
  {
    WithIds(catalog, user.likedMovieIds)
  }

  /**
    One rated-movie card: the spread of `MOVIES.find(...)` plus `userScore`.
    When the id is unknown the spread contributes nothing and the card holds
    only the score; `movie` is `None` then.
  */
  datatype RatedCard = RatedCard(movie: Option<Movie>, userScore: real)

  /** `user.ratings.map(...)`: one card per rating, in rating order. */
  function RatedMovies(catalog: seq<Movie>, ratings: seq<UserRating>): (r: seq<RatedCard>)
    ensures |r| == |ratings|
    ensures forall k :: 0 <= k < |r| ==> r[k].userScore == ratings[k].score
    ensures forall k :: 0 <= k < |r| ==>
      (r[k].movie.None? <==> forall i :: 0 <= i < |catalog| ==> catalog[i].id != ratings[k].movieId)
    ensures forall k :: 0 <= k < |r| && r[k].movie.Some? ==>
      exists i :: FirstWithId(catalog, ratings[k].movieId, i) && catalog[i] == r[k].movie.value
  {
    if |ratings| == 0 then []
    else [RatedCard(FindById(catalog, ratings[0].movieId), ratings[0].score)] + RatedMovies(catalog, ratings[1..])
  }

  /** The "Liked" counter. */
  function LikedCount(user: UserProfile): nat {
    |user.likedMovieIds|
  }

  /** The "Rated" counter. */
  function RatedCount(user: UserProfile): nat {
    |user.ratings|
  }

  /**
    The "Rated" counter always equals the number of rated cards, while the
    "Liked" counter bounds the liked grid from above in a catalog with unique
    ids: liked ids the catalog lacks, and repeated ones, are counted but not shown.
  */
  lemma CountersVersusCards(catalog: seq<Movie>, user: UserProfile)
    ensures RatedCount(user) == |RatedMovies(catalog, user.ratings)|
    ensures Distinct(Ids(catalog)) ==> |LikedMovies(catalog, user)| <= LikedCount(user)
  {
    if Distinct(Ids(catalog)) {
      WithIdsAtMostIds(catalog, user.likedMovieIds);
    }
  }

  /**
    In a catalog with unique ids, every rated card that found a movie shows
    the one entry carrying the rated id.
  */
  lemma RatedCardsShowTheRatedMovie(catalog: seq<Movie>, ratings: seq<UserRating>, k: nat)
    requires Distinct(Ids(catalog)) && k < |ratings|
    ensures var card := RatedMovies(catalog, ratings)[k];
      card.movie.Some? ==>
        && card.movie.value.id == ratings[k].movieId
        && forall i :: 0 <= i < |catalog| && catalog[i].id == ratings[k].movieId ==> catalog[i] == card.movie.value
  {
    var card := RatedMovies(catalog, ratings)[k];
    if card.movie.Some? {
      var j :| FirstWithId(catalog, ratings[k].movieId, j) && catalog[j] == card.movie.value;
      forall i | 0 <= i < |catalog| && catalog[i].id == ratings[k].movieId
        ensures catalog[i] == card.movie.value
      {
        assert Ids(catalog)[i] == Ids(catalog)[j];
      }
    }
  }

  /** The liked grid is a duplicate-free, catalog-ordered selection when catalog ids are unique. */
  lemma LikedMoviesOrderedAndDistinct(catalog: seq<Movie>, user: UserProfile)
    requires Distinct(Ids(catalog))
    ensures IsSubseq(LikedMovies(catalog, user), catalog)
    ensures Distinct(LikedMovies(catalog, user))
  {
    assert Distinct(catalog) by {
      forall i, j | 0 <= i < j < |catalog|
        ensures catalog[i] != catalog[j]
      {
        assert Ids(catalog)[i] != Ids(catalog)[j];
      }
    }
    WithIdsIsCatalogOrdered(catalog, user.likedMovieIds);
  }
}

=== FILE: Seqs.dfy ===
/**
  Generic sequence vocabulary shared by the catalog accessors and the views:
  order-preserving filtering (`Array.prototype.filter`), subsequences,
  duplicate-freedom, first occurrences, insertion-ordered deduplication
  (`Array.from(new Set(...))`) and infix search (`String.prototype.includes`).
*/
module Seqs {

  function Min(a: int, b: int): int {
    if a <= b then a else b
  }

  /** No element occurs twice. */
  predicate Distinct<T(==)>(s: seq<T>) {
    forall i, j :: 0 <= i < j < |s| ==> s[i] != s[j]
  }

  /** `a` can be obtained from `b` by deleting elements (order is kept). */
  predicate IsSubseq<T(==)>(a: seq<T>, b: seq<T>)
    decreases |b|
  {
    |a| == 0 || (|b| > 0 && ((a[0] == b[0] && IsSubseq(a[1..], b[1..])) || IsSubseq(a, b[1..])))
  }

  /** The elements of `s` that satisfy `p`, in their order in `s`. */
  function Filter<T>(s: seq<T>, p: T -> bool): seq<T> {
    if |s| == 0 then []
    else (if p(s[0]) then [s[0]] else []) + Filter(s[1..], p)
  }

  /** Index of the first occurrence of `x` in `s`. */
  function FirstIndex<T(==)>(s: seq<T>, x: T): (i: nat)
    requires x in s
    ensures i < |s| && s[i] == x && x !in s[..i]
  {
    if s[0] == x then 0 else 1 + FirstIndex(s[1..], x)
  }

  /**
    The distinct elements of `s`, each kept at its first occurrence: the order
    in which a JavaScript `Set` built from `s` yields them.
  */
  function Dedup<T(==,!new)>(s: seq<T>): (r: seq<T>)
    ensures Distinct(r)
    ensures forall x :: x in r <==> x in s
    decreases |s|
  {
    if |s| == 0 then []
    else
      var init := s[..|s| - 1];
      var last := s[|s| - 1];
      assert s == init + [last];
      var rest := Dedup(init);
      if last in rest then rest else rest + [last]
  }

  /** `needle` occurs in `hay` starting at index 0. */
  predicate IsPrefix<T(==)>(needle: seq<T>, hay: seq<T>) {
    |needle| <= |hay| && hay[..|needle|] == needle
  }

  /** `needle` occurs somewhere in `hay` (`hay.includes(needle)`). */
  predicate IsInfix<T(==)>(needle: seq<T>, hay: seq<T>)
    decreases |hay|
  {
    IsPrefix(needle, hay) || (|hay| > 0 && IsInfix(needle, hay[1..]))
  }

  // ---------------------------------------------------------------------------
  // Subsequences

  lemma {:induction false} SubseqLength<T>(a: seq<T>, b: seq<T>)
    requires IsSubseq(a, b)
    ensures |a| <= |b|
    decreases |b|
  {
    if |a| > 0 {
      if a[0] == b[0] && IsSubseq(a[1..], b[1..]) {
        SubseqLength(a[1..], b[1..]);
      } else {
        SubseqLength(a, b[1..]);
      }
    }
  }

  lemma {:induction false} SubseqMembers<T>(a: seq<T>, b: seq<T>)
    requires IsSubseq(a, b)
    ensures forall x :: x in a ==> x in b
    decreases |b|
  {
    if |a| > 0 {
      if a[0] == b[0] && IsSubseq(a[1..], b[1..]) {
        SubseqMembers(a[1..], b[1..]);
        assert a == [a[0]] + a[1..];
      } else {
        SubseqMembers(a, b[1..]);
      }
    }
  }

  lemma {:induction false} SubseqTransitive<T>(a: seq<T>, b: seq<T>, c: seq<T>)
    requires IsSubseq(a, b) && IsSubseq(b, c)
    ensures IsSubseq(a, c)
    decreases |c|
  {
    if |a| > 0 {
      if b[0] == c[0] && IsSubseq(b[1..], c[1..]) {
        if a[0] == b[0] && IsSubseq(a[1..], b[1..]) {
          SubseqTransitive(a[1..], b[1..], c[1..]);
        } else {
          SubseqTransitive(a, b[1..], c[1..]);
        }
      } else {
        SubseqTransitive(a, b, c[1..]);
      }
    }
  }

  lemma {:induction false} PrefixIsSubseq<T>(s: seq<T>, n: nat)
    requires n <= |s|
    ensures IsSubseq(s[..n], s)
  {
    if n > 0 {
      assert s[..n][1..] == s[1..][..n - 1];
      PrefixIsSubseq(s[1..], n - 1);
    }
  }

  /** A subsequence of a duplicate-free sequence is duplicate-free. */
  lemma {:induction false} SubseqDistinct<T>(a: seq<T>, b: seq<T>)
    requires IsSubseq(a, b) && Distinct(b)
    ensures Distinct(a)
    decreases |b|
  {
    if |a| > 0 {
      if a[0] == b[0] && IsSubseq(a[1..], b[1..]) {
        SubseqDistinct(a[1..], b[1..]);
        SubseqMembers(a[1..], b[1..]);
        forall i, j | 0 <= i < j < |a|
          ensures a[i] != a[j]
        {
          if i > 0 {
            assert a[i] == a[1..][i - 1] && a[j] == a[1..][j - 1];
          } else {
            assert a[j] in a[1..];
            assert a[j] in b[1..];
          }
        }
      } else {
        SubseqDistinct(a, b[1..]);
      }
    }
  }

  // ---------------------------------------------------------------------------
  // Filter

  /** A filter keeps exactly the members of its input that satisfy the predicate. */
  lemma {:induction false} FilterMembers<T>(s: seq<T>, p: T -> bool)
    ensures |Filter(s, p)| <= |s|
    ensures forall i :: 0 <= i < |Filter(s, p)| ==> Filter(s, p)[i] in s && p(Filter(s, p)[i])
    ensures forall i :: 0 <= i < |s| && p(s[i]) ==> s[i] in Filter(s, p)
  {
    if |s| > 0 {
      FilterMembers(s[1..], p);
      var rest := Filter(s[1..], p);
      if p(s[0]) {
        assert Filter(s, p) == [s[0]] + rest;
      }
      forall i | 0 <= i < |s| && p(s[i])
        ensures s[i] in Filter(s, p)
      {
        if i > 0 {
          assert s[i] == s[1..][i - 1];
        }
      }
    }
  }

  /** A filter keeps the order of its input: the result is a subsequence. */
  lemma {:induction false} FilterIsSubseq<T(!new)>(s: seq<T>, p: T -> bool)
    ensures IsSubseq(Filter(s, p), s)
  {
    if |s| > 0 {
      FilterIsSubseq(s[1..], p);
      var rest := Filter(s[1..], p);
      if p(s[0]) {
        assert Filter(s, p) == [s[0]] + rest;
        assert ([s[0]] + rest)[1..] == rest;
      } else {
        assert Filter(s, p) == rest;
      }
    }
  }

  /** Every copy of a kept value is kept and nothing else: the filter's multiset. */
  lemma {:induction false} FilterCounts<T(!new)>(s: seq<T>, p: T -> bool, x: T)
    ensures multiset(Filter(s, p))[x] == if p(x) then multiset(s)[x] else 0
  {
    if |s| > 0 {
      FilterCounts(s[1..], p, x);
      assert s == [s[0]] + s[1..];
    }
  }

  lemma FilterDistinct<T(!new)>(s: seq<T>, p: T -> bool)
    requires Distinct(s)
    ensures Distinct(Filter(s, p))
  {
    FilterIsSubseq(s, p);
    SubseqDistinct(Filter(s, p), s);
  }

  /** Filtering is determined pointwise: predicates that agree on `s` filter it alike. */
  lemma {:induction false} FilterCongruent<T(!new)>(s: seq<T>, p: T -> bool, q: T -> bool)
    requires forall i :: 0 <= i < |s| ==> p(s[i]) == q(s[i])
    ensures Filter(s, p) == Filter(s, q)
  {
    if |s| > 0 {
      FilterCongruent(s[1..], p, q);
    }
  }

  /** A predicate that holds exactly on the first `k` positions filters `s` down to `s[..k]`. */
  lemma {:induction false} FilterSplit<T>(s: seq<T>, p: T -> bool, k: nat)
    requires k <= |s|
    requires forall i :: 0 <= i < |s| ==> p(s[i]) == (i < k)
    ensures Filter(s, p) == s[..k]
  {
    if |s| > 0 {
      if k > 0 {
        FilterSplit(s[1..], p, k - 1);
        assert s[..k] == [s[0]] + s[1..][..k - 1];
      } else {
        FilterSplit(s[1..], p, 0);
      }
    }
  }

  // ---------------------------------------------------------------------------
  // Element sets

  /** The set of values occurring in `s`. */
  function Elements<T>(s: seq<T>): set<T> {
    set i | 0 <= i < |s| :: s[i]
  }

  /** A sequence has at most as many distinct values as entries, and exactly as many when it is duplicate-free. */
  lemma {:induction false} ElementsBound<T>(s: seq<T>)
    ensures |Elements(s)| <= |s|
    ensures Distinct(s) ==> |Elements(s)| == |s|
  {
    if |s| > 0 {
      var init := s[..|s| - 1];
      ElementsBound(init);
      assert Elements(s) == Elements(init) + {s[|s| - 1]} by {
        forall x | x in Elements(s)
          ensures x in Elements(init) + {s[|s| - 1]}
        {
          var i :| 0 <= i < |s| && s[i] == x;
          if i < |s| - 1 {
            assert init[i] == x;
          }
        }
        forall x | x in Elements(init)
          ensures x in Elements(s)
        {
          var i :| 0 <= i < |init| && init[i] == x;
          assert s[i] == x;
        }
      }
      if Distinct(s) {
        assert Distinct(init);
        assert s[|s| - 1] !in Elements(init);
      }
    }
  }

  /** A subset has no more elements than its superset. */
  lemma SubsetCard<T>(a: set<T>, b: set<T>)
    requires a <= b
    ensures |a| <= |b|
  {
    assert b == a + (b - a);
  }

  // ---------------------------------------------------------------------------
  // First occurrences and Dedup

  lemma FirstIndexUnique<T>(s: seq<T>, x: T, i: nat)
    requires i < |s| && s[i] == x && x !in s[..i]
    ensures FirstIndex(s, x) == i
  {
  }

  lemma FirstIndexOfPrefix<T>(s: seq<T>, n: nat, x: T)
    requires n <= |s| && x in s[..n]
    ensures x in s && FirstIndex(s, x) == FirstIndex(s[..n], x)
  {
    var k := FirstIndex(s[..n], x);
    assert s[..n][..k] == s[..k];
    FirstIndexUnique(s, x, k);
  }

  /** `Dedup` lists the values of `s` in the order of their first occurrences. */
  lemma {:induction false} DedupOrder<T(!new)>(s: seq<T>)
    ensures forall i, j :: 0 <= i < j < |Dedup(s)| ==>
      FirstIndex(s, Dedup(s)[i]) < FirstIndex(s, Dedup(s)[j])
    decreases |s|
  {
    if |s| > 0 {
      var n := |s| - 1;
      var init := s[..n];
      var last := s[n];
      assert s == init + [last];
      var rest := Dedup(init);
      DedupOrder(init);
      var r := Dedup(s);
      forall i, j | 0 <= i < j < |r|
        ensures FirstIndex(s, r[i]) < FirstIndex(s, r[j])
      {
        assert r[i] == rest[i];
        assert r[i] in init;
        FirstIndexOfPrefix(s, n, r[i]);
        if j < |rest| {
          assert r[j] == rest[j];
          FirstIndexOfPrefix(s, n, r[j]);
        } else {
          assert r[j] == last && last !in init;
          assert s[..n] == init;
          FirstIndexUnique(s, last, n);
        }
      }
    }
  }

  // ---------------------------------------------------------------------------
  // Infix search

  /** `needle` occurs in `hay` starting at index `i`. */
  predicate OccursAt<T(==)>(needle: seq<T>, hay: seq<T>, i: int) {
    0 <= i && i + |needle| <= |hay| && hay[i..i + |needle|] == needle
  }

  /** `IsInfix` agrees with the positional definition of a substring match. */
  lemma {:induction false} InfixAt<T>(needle: seq<T>, hay: seq<T>)
    ensures IsInfix(needle, hay) <==> exists i :: OccursAt(needle, hay, i)
    decreases |hay|
  {
    if IsPrefix(needle, hay) {
      assert OccursAt(needle, hay, 0);
    } else if |hay| > 0 {
      InfixAt(needle, hay[1..]);
      if IsInfix(needle, hay[1..]) {
        var i :| OccursAt(needle, hay[1..], i);
        assert hay[1..][i..i + |needle|] == hay[i + 1..i + 1 + |needle|];
        assert OccursAt(needle, hay, i + 1);
      }
      if exists i :: OccursAt(needle, hay, i) {
        var i :| OccursAt(needle, hay, i);
        if i > 0 {
          assert hay[1..][i - 1..i - 1 + |needle|] == hay[i..i + |needle|];
          assert OccursAt(needle, hay[1..], i - 1);
        }
      }
    }
  }

  /** What occurs inside a sequence occurs inside any sequence that contains it as a block. */
  lemma InfixOfConcat<T>(pre: seq<T>, needle: seq<T>, post: seq<T>)
    ensures IsInfix(needle, pre + needle + post)
  {
    var hay := pre + needle + post;
    assert hay[|pre|..|pre| + |needle|] == needle;
    assert OccursAt(needle, hay, |pre|);
    InfixAt(needle, hay);
  }

  /** Each of the four blocks between five separators, and the last separator, occurs in their concatenation. */
  lemma InfixOfFourBlocks<T>(a: seq<T>, x1: seq<T>, b: seq<T>, x2: seq<T>, c: seq<T>, x3: seq<T>, d: seq<T>, x4: seq<T>, f: seq<T>)
    ensures IsInfix(x1, a + x1 + b + x2 + c + x3 + d + x4 + f)
    ensures IsInfix(x2, a + x1 + b + x2 + c + x3 + d + x4 + f)
    ensures IsInfix(x3, a + x1 + b + x2 + c + x3 + d + x4 + f)
    ensures IsInfix(x4, a + x1 + b + x2 + c + x3 + d + x4 + f)
    ensures IsInfix(f, a + x1 + b + x2 + c + x3 + d + x4 + f)
  {
    var s := a + x1 + b + x2 + c + x3 + d + x4 + f;
    InfixOfConcat(a, x1, b + x2 + c + x3 + d + x4 + f);
    assert a + x1 + (b + x2 + c + x3 + d + x4 + f) == s;
    InfixOfConcat(a + x1 + b, x2, c + x3 + d + x4 + f);
    assert a + x1 + b + x2 + (c + x3 + d + x4 + f) == s;
    InfixOfConcat(a + x1 + b + x2 + c, x3, d + x4 + f);
    assert a + x1 + b + x2 + c + x3 + (d + x4 + f) == s;
    InfixOfConcat(a + x1 + b + x2 + c + x3 + d, x4, f);
    InfixOfConcat(a + x1 + b + x2 + c + x3 + d + x4, f, []);
    assert s + [] == s;
  }

  /** An infix of an infix is an infix. */
  lemma InfixTransitive<T>(a: seq<T>, b: seq<T>, c: seq<T>)
    requires IsInfix(a, b) && IsInfix(b, c)
    ensures IsInfix(a, c)
  {
    InfixAt(a, b);
    InfixAt(b, c);
    var i :| OccursAt(a, b, i);
    var j :| OccursAt(b, c, j);
    forall t | 0 <= t < |a|
      ensures c[i + j + t] == a[t]
    {
      assert a[t] == b[i..i + |a|][t] == b[i + t];
      assert b[i + t] == c[j..j + |b|][i + t] == c[j + i + t];
    }
    assert c[i + j..i + j + |a|] == a;
    assert OccursAt(a, c, i + j);
    InfixAt(a, c);
  }
}

=== FILE: Text.dfy ===
/**
  The string operations the views rely on: `String.prototype.trim` (through the
  "is this input blank" test) and lower-casing for case-insensitive search.
*/
module Text {

  /**
    The code points ECMAScript's `trim` removes: the WhiteSpace set (tab,
    vertical tab, form feed, space, no-break space, zero-width no-break space
    and the Unicode space separators) and the LineTerminator set.
  */
  predicate IsSpace(c: char) {
    var n := c as int;
    n == 0x09 || n == 0x0A || n == 0x0B || n == 0x0C || n == 0x0D || n == 0x20
    || n == 0xA0 || n == 0x1680 || (0x2000 <= n <= 0x200A) || n == 0x2028
    || n == 0x2029 || n == 0x202F || n == 0x205F || n == 0x3000 || n == 0xFEFF
  }

  predicate AllSpace(s: string) {
    forall i :: 0 <= i < |s| ==> IsSpace(s[i])
  }

  /** The end of the run of white space in `s` that starts at `i`. */
  function SpaceRunEnd(s: string, i: nat): (j: nat)
    requires i <= |s|
    ensures i <= j <= |s|
    ensures forall k :: i <= k < j ==> IsSpace(s[k])
    ensures j == |s| || !IsSpace(s[j])
    decreases |s| - i
  {
    if i < |s| && IsSpace(s[i]) then SpaceRunEnd(s, i + 1) else i
  }

  /** `s` without its leading white space. */
  function TrimStart(s: string): (r: string)
    ensures |r| <= |s| && r == s[|s| - |r|..]
    ensures AllSpace(s[..|s| - |r|])
    ensures r == [] || !IsSpace(r[0])
  {
    var j := SpaceRunEnd(s, 0);
    assert |s| - |s[j..]| == j;
    s[j..]
  }

  /** `s` without its trailing white space. */
  function TrimEnd(s: string): (r: string)
    ensures |r| <= |s| && r == s[..|r|]
    ensures AllSpace(s[|r|..])
    ensures r == [] || !IsSpace(r[|r| - 1])
  {
    if |s| > 0 && IsSpace(s[|s| - 1]) then TrimEnd(s[..|s| - 1]) else s
  }

  /** `r` is the block of `s` at offset `k`, with only white space before and after it. */
  predicate SurroundedBySpace(s: string, r: string, k: int) {
    0 <= k <= |s| - |r| && r == s[k..k + |r|] && AllSpace(s[..k]) && AllSpace(s[k + |r|..])
  }

  /**
    `s.trim()`: the block of `s` left between a leading and a trailing run of
    white space, and neither starting nor ending with white space.
  */
  function Trim(s: string): (r: string)
    ensures exists k :: SurroundedBySpace(s, r, k)
    ensures r == [] || (!IsSpace(r[0]) && !IsSpace(r[|r| - 1]))
  {
    var t := TrimStart(s);
    var r := TrimEnd(t);
    assert r == [] || (!IsSpace(r[0]) && !IsSpace(r[|r| - 1])) by {
      assert r == [] || r[0] == t[0];
    }
    TrimmedBlock(s, t, r);
    r
  }

  /** Cutting leading white space off `s` and then trailing white space off the rest leaves a block surrounded by space. */
  lemma TrimmedBlock(s: string, t: string, r: string)
    requires |t| <= |s| && t == s[|s| - |t|..] && AllSpace(s[..|s| - |t|])
    requires |r| <= |t| && r == t[..|r|] && AllSpace(t[|r|..])
    ensures SurroundedBySpace(s, r, |s| - |t|)
  {
    var k := |s| - |t|;
    assert t[..|r|] == s[k..k + |r|];
    assert t[|r|..] == s[k + |r|..];
  }

  /** `!s.trim()`: the trimmed string is the empty, falsy, string, exactly when every character is white space. */
  predicate IsBlank(s: string): (b: bool)
    ensures b <==> AllSpace(s)
  {
    var r := Trim(s);
    assert r == [] ==> AllSpace(s) by {
      if r == [] {
        var k :| SurroundedBySpace(s, r, k);
        forall i | 0 <= i < |s|
          ensures IsSpace(s[i])
        {
          if i < k {
            assert s[..k][i] == s[i];
          } else {
            assert s[k..][i - k] == s[i];
          }
        }
      }
    }
    r == []
  }

  /** Upper-case ASCII letters map to lower case; everything else is kept. */
  function LowerChar(c: char): char {
    if 'A' <= c <= 'Z' then (c as int + 32) as char else c
  }

  /** `s.toLowerCase()` restricted to ASCII letters. */
  function Lower(s: string): (r: string)
    ensures |r| == |s|
    ensures forall i :: 0 <= i < |s| ==> r[i] == LowerChar(s[i])
  {
    seq(|s|, i requires 0 <= i < |s| => LowerChar(s[i]))
  }

  /** Lower-casing is idempotent and leaves no upper-case ASCII letter behind. */
  lemma LowerIdempotent(s: string)
    ensures Lower(Lower(s)) == Lower(s)
    ensures forall i :: 0 <= i < |s| ==> !('A' <= Lower(s)[i] <= 'Z')
  {
  }
}

=== FILE: Types.dfy ===
/**
  The records of the application: catalog movies, the signed-in user's
  profile, the recommendation payload and chat transcript entries, and the
  JavaScript values that parsed JSON and transcript contents can be.
  Ratings and scores are floating-point numbers that the code only passes
  through; `real` stands for them.
*/
module Types {
  import opened Options

  datatype Movie = Movie(
    id: string,
    title: string,
    description: string,
    thumbnail: string,
    backdrop: string,
    rating: real,
    year: int,
    genre: seq<string>,
    duration: string,
    cast: seq<string>,
    isTrending: Option<bool>,
    isNew: Option<bool>)

  datatype UserRating = UserRating(movieId: string, score: real)

  datatype UserProfile = UserProfile(
    name: string,
    email: string,
    interests: seq<string>,
    likedMovieIds: seq<string>,
    ratings: seq<UserRating>)

  datatype RecommendationResponse = RecommendationResponse(recommendedIds: seq<string>, explanation: string)

  /**
    A JavaScript value as `JSON.parse` can produce it, and `Undefined` for a
    property that is not there. Object members keep their textual order;
    a repeated key is kept too, and the last occurrence is the one read.
  */
  datatype Value =
    | Undefined
    | Null
    | Bool(b: bool)
    | Number(n: real)
    | Str(text: string)
    | Array(items: seq<Value>)
    | Object(members: seq<Member>)

  datatype Member = Member(key: string, value: Value)

  /** The value of the last member named `key`, or `Undefined` when there is none. */
  function Lookup(members: seq<Member>, key: string): (r: Value)
    ensures (forall i :: 0 <= i < |members| ==> members[i].key != key) ==> r == Undefined
    ensures |members| > 0 && members[|members| - 1].key == key ==> r == members[|members| - 1].value
    ensures forall i :: 0 <= i < |members| && members[i].key == key && (forall j :: i < j < |members| ==> members[j].key != key) ==>
      r == members[i].value
  {
    if |members| == 0 then Undefined
    else if members[|members| - 1].key == key then members[|members| - 1].value
    else
      var init := members[..|members| - 1];
      assert forall i :: 0 <= i < |init| ==> init[i] == members[i];
      Lookup(init, key)
  }

  /**
    `v[key]` for a key no built-in prototype defines: an object's own member,
    `Undefined` on any other value. Reading a property of `null` or
    `undefined` throws; callers rule those out first.
  */
  function Property(v: Value, key: string): Value {
    match v
    case Object(members) => Lookup(members, key)
    case _ => Undefined
  }

  /** The strings as JavaScript string values. */
  function StrValues(ss: seq<string>): (r: seq<Value>)
    ensures |r| == |ss|
    ensures forall i :: 0 <= i < |ss| ==> r[i] == Str(ss[i])
  {
    seq(|ss|, i requires 0 <= i < |ss| => Str(ss[i]))
  }

  /** The string items of an array, in order; items of any other type are dropped. */
  function StringItems(items: seq<Value>): (r: seq<string>)
    ensures forall s :: s in r <==> Str(s) in items
  {
    if |items| == 0 then []
    else
      var rest := StringItems(items[1..]);
      assert forall v :: v in items <==> v == items[0] || v in items[1..];
      match items[0]
      case Str(t) => [t] + rest
      case _ => rest
  }

  /** Writing strings as values and reading the strings back is the identity. */
  lemma {:induction false} StringItemsOfStrValues(ss: seq<string>)
    ensures StringItems(StrValues(ss)) == ss
  {
    if |ss| > 0 {
      var vs := StrValues(ss);
      assert vs[0] == Str(ss[0]) && vs[1..] == StrValues(ss[1..]);
      assert StringItems(vs) == [ss[0]] + StringItems(vs[1..]);
      StringItemsOfStrValues(ss[1..]);
      assert [ss[0]] + ss[1..] == ss;
    }
  }

  datatype Role = User | Assistant

  /**
    One transcript entry; `movies` is present only on assistant replies that
    went through. `content` is declared a string, but an assistant reply
    carries whatever value the reply's `explanation` was.
  */
  datatype ChatMessage = ChatMessage(role: Role, content: Value, movies: Option<seq<Movie>>)

  /** The ids of a sequence of movies, in order. */
  function Ids(movies: seq<Movie>): (r: seq<string>)
    ensures |r| == |movies|
    ensures forall i :: 0 <= i < |movies| ==> r[i] == movies[i].id
  {
    seq(|movies|, i requires 0 <= i < |movies| => movies[i].id)
  }
}
